=== FILE: README.md ===
# Numeric mask for a WPF text box, in Dafny

This project models `NumericMaskBehaviorCore`, the engine behind a WPF behavior
that keeps a `TextBox` holding a signed integer or decimal numeral. The engine
is a set of string and caret transformations:

- **symbol acceptance** (`IsSymbolValid`, `IsCaretInDecimalPart`);
- the **keystroke transformer** (`PreviewTextInputCallBack`): the rejection
  gates, the lone negative sign, seeding "0" + separator into an empty field,
  replacing a selection, and inserting or appending at the caret;
- the **deletion handler** (`PreviewKeyDownCallBack`): Backspace and Delete
  when they would remove the decimal separator;
- **normalisation**: `ValidateValue`, `ValidateLimits` and `ValidateTextBox`,
  the paste handler, and the place-option validators (at most 29 places);
- how the behavior class hands its settings to the engine (`ValidateControl`
  and its own paste handler), since the order of the two bounds matters there.

The text box is an immutable `EditState(text, caret, selStart, selLen)`. A
handler's outcome is a `Reaction`:

- `Handled(state)`: the event is marked handled and the box gets this state;
- `Unhandled`: the widget does its own editing;
- `Thrown(fault)`: a `Substring` or `Insert` index is out of range.

The culture's decimal separator and negative sign are one character each
(`Symbols`).

Everything the engine delegates to .NET is one `Library` value of function
fields, so every property holds whatever those routines do:

- `char.IsDigit`;
- `String.Trim`;
- `decimal.TryParse` and `int.TryParse` under the thread culture;
- `ToString` under the configured culture.

Decimals are exact `real`s between the `decimal.MinValue` and
`decimal.MaxValue` sentinels (±79228162514264337593543950335). `int` and `byte`
are subset types with their .NET ranges. The conversion `(int)decimal`
truncates toward zero and fails with `Overflow` outside Int32.

The module `InvariantCulture` is a small concrete library: ASCII digits, `-`
and `.`, and `[-]digits[.digits]` parsing within the decimal range. It shows
that the abstract facts the worked examples assume are met. It proves that
`int.ToString` is read back by `int.TryParse`. It is a stand-in for the .NET
routines and does not model the repository.

The modules follow the engine's structure:

| file | module | what it holds |
|---|---|---|
| `runtime.dfy` | `Runtime` | .NET types and the `Library` |
| `strings.dfy` | `Strings` | ordinal `StartsWith`, `IndexOf`, `Replace` |
| `mask.dfy` | `Mask` | modes, symbols, edit state, place validators, symbol acceptance |
| `limits.dfy` | `Limits` | `ValidateLimits` |
| `normalize.dfy` | `Normalize` | `ValidateValue`, `ValidateTextBox`, paste |
| `keystroke.dfy` | `Keystroke` | `PreviewTextInputCallBack` |
| `keystroke_facts.dfy` | `KeystrokeFacts` | its properties |
| `deletion.dfy` | `Deletion` | `PreviewKeyDownCallBack` |
| `host.dfy` | `Host` | the behavior class's calls into the engine |
| `corrections.dfy` | `Corrections` | the findings below |
| `invariant_culture.dfy` | `InvariantCulture` | the concrete library |
| `scenarios.dfy` | `Scenarios` | worked examples |

Where the engine's written description and its code differ, the model follows
the code:

- a refused paste leaves the field's text as it was; it does not empty it;
- a pasted text in Any mode comes back trimmed;
- the lone sign replaces every occurrence of the selected text, and its
  "prepend" step then overwrites that replacement;
- the lone sign does not always advance the caret: with text present, no
  selection of the whole text, no selection starting at 0 and the caret away
  from 0, nothing changes, the caret included;
- a selection replacement that does not parse can still be committed
  (for example "-.");
- in Integer mode a bound with a fraction is clamped to and then cut toward
  zero by the `(int)` cast, so with a lower bound of 2.5 a pasted "1" becomes
  "2", below the bound;
- the fraction gate refuses a keystroke once `decimalPlaces` characters follow
  the separator and the caret is after it.

## Model

| member | source | states |
|---|---|---|
| Mask.ValidateDecimalPlaces | Wpf.NumericMaskBehavior/NumericMaskBehavior/TextBoxNumericMaskBehaviorCore.cs:470-477 | A DecimalPlaces option is accepted, unchanged, exactly when it is at most MAX_DECIMAL_PLACES = 29; anything larger fails with ArgumentOutOfRange |
| Mask.ValidateIntegerPlaces | Wpf.NumericMaskBehavior/NumericMaskBehavior/TextBoxNumericMaskBehaviorCore.cs:479-486 | An IntegerPlaces option is accepted, unchanged, exactly when it is at most MAX_INTEGER_PLACES = 29; anything larger fails with ArgumentOutOfRange |
| Mask.WithDecimalPlaces | Wpf.NumericMaskBehavior/NumericMaskBehavior/TextBoxNumericMaskBehavior.cs:108-113 | Storing DecimalPlaces fails exactly for values above 29; on success only that option changes and valid options stay valid |
| Mask.WithIntegerPlaces | Wpf.NumericMaskBehavior/NumericMaskBehavior/TextBoxNumericMaskBehavior.cs:126-131 | Storing IntegerPlaces fails exactly for values above 29; on success only that option changes and valid options stay valid |
| Mask.IsSymbolValid | Wpf.NumericMaskBehavior/NumericMaskBehavior/TextBoxNumericMaskBehaviorCore.cs:426-453 | The scan answers true exactly when the mode admits the text: Any admits everything; Integer admits the lone sign or all-digit text (so also ""); Decimal also admits the lone separator |
| Mask.EmptySymbolAccepted | Wpf.NumericMaskBehavior/NumericMaskBehavior/TextBoxNumericMaskBehaviorCore.cs:426-453 | The empty text passes the symbol scan in every mode, so the first gate of the keystroke handler (:137) never refuses it |
| Mask.MultiCharacterSymbolRefused | Wpf.NumericMaskBehavior/NumericMaskBehavior/TextBoxNumericMaskBehaviorCore.cs:426-453 | In Integer and Decimal mode, text of two or more characters that contains the separator or the sign is refused, provided neither symbol is a digit |
| Mask.CaretInDecimalPartMeaning | Wpf.NumericMaskBehavior/NumericMaskBehavior/TextBoxNumericMaskBehaviorCore.cs:455-459 | Given the separator's index, IsCaretInDecimalPart holds exactly when a separator occurs before the caret |
| Runtime.ToInt32 | Wpf.NumericMaskBehavior/NumericMaskBehavior/TextBoxNumericMaskBehaviorCore.cs:375 | `(int)` of a decimal succeeds with the value truncated toward zero (the floor for a non-negative value, the ceiling for a negative one), and fails with Overflow exactly when the truncation is outside the Int32 range |
| Limits.ValidateLimits | Wpf.NumericMaskBehavior/NumericMaskBehavior/TextBoxNumericMaskBehaviorCore.cs:411-424 | The result is the value or a set bound; a value within every set bound is returned unchanged; a value below a set lower bound becomes that bound; a value not below it and above a set upper bound becomes the upper bound; with lower <= upper the result is within the set bounds |
| Limits.ValidateLimitsIdempotent | Wpf.NumericMaskBehavior/NumericMaskBehavior/TextBoxNumericMaskBehaviorCore.cs:411-424 | With ordered bounds, clamping twice gives the same as clamping once |
| Limits.ValidateLimitsReversed | Wpf.NumericMaskBehavior/NumericMaskBehavior/TextBoxNumericMaskBehaviorCore.cs:411-424 | With both bounds set and lower above upper, every value becomes one of the two bounds, and clamping that again always moves it to the other |
| Normalize.TooManyDecimalsMeaning | Wpf.NumericMaskBehavior/NumericMaskBehavior/TextBoxNumericMaskBehaviorCore.cs:387-393 | The "length minus separator index" test refuses a text exactly when at least decimalPlaces characters follow its first separator |
| Normalize.ValidateValue | Wpf.NumericMaskBehavior/NumericMaskBehavior/TextBoxNumericMaskBehaviorCore.cs:354-409 | A missing or empty text gives ""; Any mode returns the trimmed text; only Integer mode can fail, with Overflow |
| Normalize.DecimalRefused | Wpf.NumericMaskBehavior/NumericMaskBehavior/TextBoxNumericMaskBehaviorCore.cs:382-400 | In Decimal mode a trimmed text that does not parse, or has at least decimalPlaces characters after its separator, gives "" |
| Normalize.DecimalAccepted | Wpf.NumericMaskBehavior/NumericMaskBehavior/TextBoxNumericMaskBehaviorCore.cs:382-400 | In Decimal mode a parsed text within the fraction limit is shown as its value clamped with the FIRST bound argument as the lower limit; the result is within ordered bounds, and an in-range value is shown as itself |
| Normalize.IntegerShownUnchanged | Wpf.NumericMaskBehavior/NumericMaskBehavior/TextBoxNumericMaskBehaviorCore.cs:370-380 | In Integer mode an unparsable text gives "", and a parsed int within the bounds is shown as that int |
| Normalize.IntegerClamped | Wpf.NumericMaskBehavior/NumericMaskBehavior/TextBoxNumericMaskBehaviorCore.cs:370-380 | In Integer mode a parsed int below a set lower bound is shown as the lower bound cut toward zero, and one above a set upper bound as the upper bound cut toward zero; the cast fails with Overflow when that bound lies outside Int32 |
| Normalize.IntegerNoOverflow | Wpf.NumericMaskBehavior/NumericMaskBehavior/TextBoxNumericMaskBehaviorCore.cs:370-380 | Integer mode never fails when every set bound lies within Int32 |
| Normalize.ValidateTextBox | Wpf.NumericMaskBehavior/NumericMaskBehavior/TextBoxNumericMaskBehaviorCore.cs:331-352 | Any mode leaves the text alone; an empty text becomes ""; only Integer mode can fail |
| Normalize.ValidateTextBoxLowerIsSecond | Wpf.NumericMaskBehavior/NumericMaskBehavior/TextBoxNumericMaskBehaviorCore.cs:331-352 | ValidateTextBox clamps with its minimumValue parameter as the lower limit, so within the engine the two swaps cancel |
| Normalize.Paste | Wpf.NumericMaskBehavior/NumericMaskBehavior/TextBoxNumericMaskBehaviorCore.cs:21-50 | A paste that does not throw is cancelled and handled. It fails exactly when ValidateValue fails. A "" result leaves the current text. A non-empty result replaces it, so a non-empty field is never emptied |
| Normalize.PasteLowerIsMinimum | Wpf.NumericMaskBehavior/NumericMaskBehavior/TextBoxNumericMaskBehaviorCore.cs:21-50 | The paste handler clamps with its minimumValue parameter as the lower limit |
| Keystroke.CalculateDecPartLength | Wpf.NumericMaskBehavior/NumericMaskBehavior/TextBoxNumericMaskBehaviorCore.cs:461-464 | The result is caret + decimalPlaces rounded down to a multiple of the text length: never negative, never above caret + decimalPlaces, and within one length of it |
| Keystroke.DecPartLengthAtCallSite | Wpf.NumericMaskBehavior/NumericMaskBehavior/TextBoxNumericMaskBehaviorCore.cs:289-298 | Where the handler calls it, the kept length is either 0 or the whole text |
| Keystroke.NegativeSignInput | Wpf.NumericMaskBehavior/NumericMaskBehavior/TextBoxNumericMaskBehaviorCore.cs:176-202 | An empty or wholly selected field becomes the lone sign, with the caret one further. Otherwise a caret at 0 without a leading sign puts the sign in front of the original text. Otherwise a selection at 0 has every occurrence of its text replaced by the sign. Anything else changes nothing. The selection fields are not touched |
| Keystroke.SeedFraction | Wpf.NumericMaskBehavior/NumericMaskBehavior/TextBoxNumericMaskBehaviorCore.cs:204-222 | The new text ends in "0" + separator with the caret at its end. It has three characters, the first being the sign, exactly when the field was the lone sign with nothing selected |
| Keystroke.InsertAt | Wpf.NumericMaskBehavior/NumericMaskBehavior/TextBoxNumericMaskBehaviorCore.cs:281-299 | The mid-text insert throws only for a caret past the end. A character other than the separator commits the splice at the caret, with the caret after it, when the splice parses, and otherwise keeps the text with the selection collapsed at the caret. For the separator the text is kept, emptied, or becomes a splice that parses |
| Keystroke.CaretInput | Wpf.NumericMaskBehavior/NumericMaskBehavior/TextBoxNumericMaskBehaviorCore.cs:258-318 | Single-character handling is never unhandled. It throws only for an index past the text. The result text is the original, the working text, empty, or a splice at the caret that parses |
| Keystroke.SelectionInput | Wpf.NumericMaskBehavior/NumericMaskBehavior/TextBoxNumericMaskBehaviorCore.cs:224-256 | Replacing a selection is never unhandled, and throws only when the typed text is shorter than the selection |
| Keystroke.PreviewTextInput | Wpf.NumericMaskBehavior/NumericMaskBehavior/TextBoxNumericMaskBehaviorCore.cs:115-325 | Every keystroke is handled, never left to the widget. It throws (ArgumentOutOfRange) only when a selection is replaced by fewer characters than it holds |
| Keystroke.AdmittedInput | Wpf.NumericMaskBehavior/NumericMaskBehavior/TextBoxNumericMaskBehaviorCore.cs:175-324 | After the gates, the same: never unhandled, and throws only for a selection replaced by a shorter text |
| KeystrokeFacts.FractionGateMeaning | Wpf.NumericMaskBehavior/NumericMaskBehavior/TextBoxNumericMaskBehaviorCore.cs:165-173 | The fraction gate fires exactly when a separator precedes the caret and at least decimalPlaces characters follow the first separator |
| KeystrokeFacts.RefusedKeepsText | Wpf.NumericMaskBehavior/NumericMaskBehavior/TextBoxNumericMaskBehaviorCore.cs:137-173 | A keystroke any gate refuses is handled with the text and selection start unchanged. A refused multi-character insert moves the caret to the end and clears the selection length; otherwise nothing changes |
| KeystrokeFacts.AdmittedWhenNotRefused | Wpf.NumericMaskBehavior/NumericMaskBehavior/TextBoxNumericMaskBehaviorCore.cs:137-175 | A keystroke that no gate refuses goes on to the sign, seeding, selection and caret branches |
| KeystrokeFacts.SeedOnEmptyField | Wpf.NumericMaskBehavior/NumericMaskBehavior/TextBoxNumericMaskBehaviorCore.cs:204-222 | "0" or the separator typed into an empty, wholly selected or lone-sign field gives "0" + separator, with the caret at the end. The sign is kept when it was alone and nothing was selected. The mode is not consulted |
| KeystrokeFacts.IntegerModeGetsSeparator | Wpf.NumericMaskBehavior/NumericMaskBehavior/TextBoxNumericMaskBehaviorCore.cs:204-222 | Even in Integer mode, "0" typed into an empty field puts a decimal separator in the field |
| KeystrokeFacts.NegativeSignKeystroke | Wpf.NumericMaskBehavior/NumericMaskBehavior/TextBoxNumericMaskBehaviorCore.cs:176-202 | An admitted sign leaves the text or makes it start with the sign. With text present, no selection at 0, no full selection and the caret away from 0, nothing changes although the event is handled |
| KeystrokeFacts.KeystrokeWithoutSelection | Wpf.NumericMaskBehavior/NumericMaskBehavior/TextBoxNumericMaskBehaviorCore.cs:258-324 | Without a selection, any keystroke but the sign is handled without throwing. It leaves the text, seeds "0" + separator (with or without the sign), empties the field, or inserts the typed text at the caret, and then only when the result parses. At the end of a text whose integer part is full, only seeding changes the text. Which outcome occurs for one character is stated by MidTextInsert and AppendAtEnd |
| KeystrokeFacts.MidTextInsert | Wpf.NumericMaskBehavior/NumericMaskBehavior/TextBoxNumericMaskBehaviorCore.cs:259-324 | A character other than the sign and the separator typed inside the text, with nothing selected, changes nothing when the integer part has no room (without a separator the whole length counts; before the separator `separatorIndex - 1` characters less a sign count). With room the splice is committed with the caret after it when it parses, and otherwise the text is kept with the selection collapsed at the caret |
| KeystrokeFacts.WholeSelectionReplaced | Wpf.NumericMaskBehavior/NumericMaskBehavior/TextBoxNumericMaskBehaviorCore.cs:225-255 | Typing over a selection of the whole text, with anything but the sign, "0" or the separator, puts the typed text in the field when it parses, with the caret after it and no selection |
| KeystrokeFacts.SelectionReplaced | Wpf.NumericMaskBehavior/NumericMaskBehavior/TextBoxNumericMaskBehaviorCore.cs:234-256 | Typing over a partial selection replaces EVERY occurrence of the selected text. A parsing result is committed, with the caret after the typed text at the selection start |
| KeystrokeFacts.SelectionReplacedOnce | Wpf.NumericMaskBehavior/NumericMaskBehavior/TextBoxNumericMaskBehaviorCore.cs:234-256 | When the selected text occurs only at the selection, the replacement is the ordinary splice |
| KeystrokeFacts.AppendAtEnd | Wpf.NumericMaskBehavior/NumericMaskBehavior/TextBoxNumericMaskBehaviorCore.cs:301-324 | Past the gates and seeding, a character typed at the end with nothing selected changes nothing when the integer part has no room (no separator in the text or typed, and the length less a leading sign already at integerPlaces). With room it is appended, with the caret after it, when the longer text parses, and otherwise the text stays as it was |
| Strings.ReplaceAllUnique | Wpf.NumericMaskBehavior/NumericMaskBehavior/TextBoxNumericMaskBehaviorCore.cs:235-237 | `string.Replace` of a pattern found at only one position is the splice at that position |
| Deletion.PreviewKeyDown | Wpf.NumericMaskBehavior/NumericMaskBehavior/TextBoxNumericMaskBehaviorCore.cs:52-113 | Backspace or Delete is handled exactly when the caret is past 0 and a separator is deleted: the one before the caret, or one inside the selection. Nothing else is handled, and nothing throws |
| Deletion.DeleteSeparatorNoSelection | Wpf.NumericMaskBehavior/NumericMaskBehavior/TextBoxNumericMaskBehaviorCore.cs:67-85 | Deleting the separator without a selection keeps a prefix of the text with no selection. When the text less a leading sign has at least integerPlaces characters, the first integerPlaces characters stay and the caret is set to the old length; otherwise everything from the first separator on goes and the caret moves back one |
| Deletion.DeleteSelectionWithSeparator | Wpf.NumericMaskBehavior/NumericMaskBehavior/TextBoxNumericMaskBehaviorCore.cs:86-110 | Deleting a selection that holds the separator keeps the text before the selection followed by at most integerPlaces characters after it. When that has at most integerPlaces characters beyond a leading sign it is the result and the caret goes to the selection start; otherwise its first integerPlaces characters stay and the caret goes to the old length. The selection fields are not touched |
| Host.ValidateControl | Wpf.NumericMaskBehavior/NumericMaskBehavior/TextBoxNumericMaskBehavior.cs:208-225 | Re-validation leaves Any-mode text alone and keeps an empty text empty. In Decimal mode a parsed value within the fraction limit is clamped with MaximumValue as the lower limit, and any other text is emptied. In Integer mode a parsed int gets the same reversed clamp and the cast, failing only with Overflow; an unparsable text is emptied |
| Host.ValidateControlReversesBounds | Wpf.NumericMaskBehavior/NumericMaskBehavior/TextBoxNumericMaskBehavior.cs:208-225 | Re-validation clamps with the bounds reversed. A decimal strictly below the maximum is shown as the maximum; one at or above it is shown as the minimum |
| Host.HostPaste | Wpf.NumericMaskBehavior/NumericMaskBehavior/TextBoxNumericMaskBehavior.cs:392-416 | The behavior's paste handler cancels and handles the paste unless it throws (Integer Overflow) |
| Host.HostPasteIsCorePaste | Wpf.NumericMaskBehavior/NumericMaskBehavior/TextBoxNumericMaskBehavior.cs:392-416 | The behavior's paste handler does what the engine's paste handler does with the bounds under their own names |
| Host.HostPasteKeepsInRange | Wpf.NumericMaskBehavior/NumericMaskBehavior/TextBoxNumericMaskBehavior.cs:392-416 | A pasted decimal within [minimum, maximum] is kept as its formatted text |
| Corrections.RevalidationFlips | Wpf.NumericMaskBehavior/NumericMaskBehavior/TextBoxNumericMaskBehavior.cs:217-224 | A value strictly inside the range is re-validated to the maximum, and re-validating that gives the minimum, a different text: re-validation never settles |
| Corrections.DefaultBoundsPinToMaximum | Wpf.NumericMaskBehavior/NumericMaskBehavior/TextBoxNumericMaskBehavior.cs:217-224 | With the default, unset bounds, re-validation shows every Decimal value below decimal.MaxValue as decimal.MaxValue and decimal.MaxValue itself as decimal.MinValue, and every parsed Integer value fails with Overflow |
| Corrections.ValidateControlIntendedSettles | Wpf.NumericMaskBehavior/NumericMaskBehavior/TextBoxNumericMaskBehavior.cs:217-224 | With the bounds passed by name, re-validation clamps into [minimum, maximum] and keeps an in-range value. Re-validating its own output changes nothing when the library reads back what it formats |
| Corrections.ExactPlacesErased | Wpf.NumericMaskBehavior/NumericMaskBehavior/TextBoxNumericMaskBehaviorCore.cs:387-393 | As written, a parsed decimal with exactly decimalPlaces fraction characters is validated to ""; the corrected check shows it |
| Corrections.ValidateValueIntendedDecimal | Wpf.NumericMaskBehavior/NumericMaskBehavior/TextBoxNumericMaskBehaviorCore.cs:382-400 | The corrected Decimal validation shows the clamped value exactly when at most decimalPlaces characters follow the separator, and gives "" otherwise. It differs from the code only on texts with exactly decimalPlaces of them |
| Corrections.SeparatorMidTextEmpties | Wpf.NumericMaskBehavior/NumericMaskBehavior/TextBoxNumericMaskBehaviorCore.cs:289-298 | As written, the separator typed mid-number, with more than decimalPlaces characters after the caret, empties the field when the result parses |
| Corrections.DecPartLengthIntendedKeepsPlaces | Wpf.NumericMaskBehavior/NumericMaskBehavior/TextBoxNumericMaskBehaviorCore.cs:289-298 | With the intended length, the separator typed mid-number keeps everything before the caret, the separator at the caret, and min(decimalPlaces, characters after the caret) fraction characters |
| Corrections.IntegerPartOverflows | Wpf.NumericMaskBehavior/NumericMaskBehavior/TextBoxNumericMaskBehaviorCore.cs:273-278 | As written, a digit typed before the separator of an integer part that is already integerPlaces long is committed. The integer part grows to integerPlaces + 1 |
| Corrections.IntendedRefusesThirdDigit | Wpf.NumericMaskBehavior/NumericMaskBehavior/TextBoxNumericMaskBehaviorCore.cs:273-278 | On "12.5" with two integer places and the caret before the separator, the check as written finds room for a digit, and the intended check finds the integer part full |
| Corrections.IntegerPartBound | Wpf.NumericMaskBehavior/NumericMaskBehavior/TextBoxNumericMaskBehaviorCore.cs:273-278 | With the intended check, a character admitted before the separator leaves at most integerPlaces in the integer part. Both directions are stated. The check as written bounds it only by integerPlaces + 1 |
| Scenarios.TypingTheWholePart | Wpf.NumericMaskBehavior/NumericMaskBehavior/TextBoxNumericMaskBehaviorCore.cs:301-324 | "1", "2", "." typed into an empty Decimal field give "1", "12", "12." with the caret following |
| Scenarios.TypingTheDecimals | Wpf.NumericMaskBehavior/NumericMaskBehavior/TextBoxNumericMaskBehaviorCore.cs:165-173 | With two decimal places, "5" and "6" give "12.5" and "12.56"; a third decimal leaves "12.56" as it is |
| Scenarios.TypeZeroIntoEmpty | Wpf.NumericMaskBehavior/NumericMaskBehavior/TextBoxNumericMaskBehaviorCore.cs:204-222 | "0" typed into an empty field gives "0." with the caret at 2 |
| Scenarios.TypeSign | Wpf.NumericMaskBehavior/NumericMaskBehavior/TextBoxNumericMaskBehaviorCore.cs:158-202 | "-" typed into an empty field gives "-" with the caret at 1; a second "-" is refused |
| Scenarios.BackspaceSeparator | Wpf.NumericMaskBehavior/NumericMaskBehavior/TextBoxNumericMaskBehaviorCore.cs:67-85 | Backspace after the separator of "0." leaves "0" with the caret at 1 |
| Scenarios.BackspaceKeepsSeparator | Wpf.NumericMaskBehavior/NumericMaskBehavior/TextBoxNumericMaskBehaviorCore.cs:77-81 | With two integer places, Backspace after the separator of "1.5" leaves "1." with the caret at 3, past the end |
| Scenarios.PasteTooManyDecimals | Wpf.NumericMaskBehavior/NumericMaskBehavior/TextBoxNumericMaskBehaviorCore.cs:21-50 | Pasting "12.345" with two decimal places leaves the field's text as it was |
| Scenarios.ReplaceEveryOccurrence | Wpf.NumericMaskBehavior/NumericMaskBehavior/TextBoxNumericMaskBehaviorCore.cs:235-237 | "55" typed over the second "12" of "1212" gives "5555" |
| Scenarios.UnparsableCommitted | Wpf.NumericMaskBehavior/NumericMaskBehavior/TextBoxNumericMaskBehaviorCore.cs:235-320 | "." typed over the "1" of "-1" commits "-.", a text that does not parse |
| Scenarios.SignCountsOnlyMidText | Wpf.NumericMaskBehavior/NumericMaskBehavior/TextBoxNumericMaskBehaviorCore.cs:262-311 | With three integer places, "3" typed inside "-12" is refused (the sign counts as a place) but typed at the end gives "-123" |
| Scenarios.FullIntegerPartRefusesAppend | Wpf.NumericMaskBehavior/NumericMaskBehavior/TextBoxNumericMaskBehaviorCore.cs:303-311 | With five integer places, "6" typed at the end of "12345" leaves the field as it was |
| Scenarios.SignDiscardsReplacement | Wpf.NumericMaskBehavior/NumericMaskBehavior/TextBoxNumericMaskBehaviorCore.cs:185-197 | "-" typed at caret 0 over the "1" of "12" gives "-12": the replacement is overwritten by the prepended sign |
| Scenarios.SeparatorEmptiesField | Wpf.NumericMaskBehavior/NumericMaskBehavior/TextBoxNumericMaskBehaviorCore.cs:289-298 | "." typed after "12" in "12345" with two decimal places empties the field |
| Scenarios.IntegerPartGrows | Wpf.NumericMaskBehavior/NumericMaskBehavior/TextBoxNumericMaskBehaviorCore.cs:273-278 | With two integer places, "3" typed in front of "12.5" gives "312.5" |
| Scenarios.IntegerBelowMinimum | Wpf.NumericMaskBehavior/NumericMaskBehavior/TextBoxNumericMaskBehaviorCore.cs:370-380 | In Integer mode with a lower bound of 2.5, pasting "1" into an empty field gives "2", below the bound |
| Scenarios.ExactDecimalsErased | Wpf.NumericMaskBehavior/NumericMaskBehavior/TextBoxNumericMaskBehaviorCore.cs:387-393 | With two decimal places, re-validating "12.56" gives "" |

The worked examples hold for any library that reads their texts as the
invariant culture does (`Scenarios.ExampleTexts`). `Scenarios.InvariantCultureQualifies`
shows that `InvariantCulture.Lib` is such a library.

## Left out

- WPF plumbing. This covers dependency-property registration, change callbacks, handler subscription and the singleton. The only part modelled is the order in which `ValidateControl` and the behavior's paste handler pass the bounds.
- Culture resolution (`ResolveCultureInfo`, `ResolveNumberFormatInfo`, TextBoxNumericMaskBehaviorCore.cs:492-537). The separator and sign are parameters, one character each. A multi-character NumberFormatInfo symbol is not modelled.
- The .NET routines. `char.IsDigit`, `Trim`, `decimal.TryParse`, `int.TryParse` and `ToString` are abstract fields of `Library`. Their grammar, Unicode digit classes, whitespace set, the decimal's scale and trailing zeros, and culture formatting are not modelled.
- The `default:` throws for a mask value outside the enum (TextBoxNumericMaskBehaviorCore.cs:404-405, 438-439). `MaskType` has exactly three values.
- A null sender, a null `e.Text` and a missing clipboard string are covered by `Option` only for the clipboard. The text box and the event text are always present.
- `inputText.StartsWith(sign)` is culture-sensitive in .NET; the model compares ordinally.
- How the widget clamps a caret past the end after `Text` is assigned. States the handlers produce keep the caret exactly as assigned.
- The coupling between the widget's `Text`, `CaretIndex` and selection properties. The text box is a record whose fields change only when the handler assigns them. In WPF, assigning `Text` resets the caret and the selection, and assigning `CaretIndex` collapses the selection. So a `CaretIndex++` after a `Text =` (TextBoxNumericMaskBehaviorCore.cs:180-181, 195-196) reads the widget's new caret, not the old one. The members below keep the old selection, so their result can have a selection beyond its text, a state the keystroke handler does not accept next.
- Keystroke.NegativeSignInput: the selection fields are kept, and the caret after :181 and :196 is the old caret plus one. On a wholly selected "12" the result is "-" with a selection length of 2.
- Keystroke.SelectionInput: its lone-sign branch (:229-230) assigns `CaretIndex = 1` and keeps the selection fields.
- Keystroke.SeedFraction: the selection fields are kept, although `CaretIndex = Text.Length` (:219) collapses the selection in WPF. Typing "0" over a wholly selected "123" gives "0." with a selection start of 0 and a length of 3. KeystrokeFacts.SeedOnEmptyField, KeystrokeFacts.IntegerModeGetsSeparator and Scenarios.TypeZeroIntoEmpty state results of this branch and share the gap.
- Keystroke.InsertAt: its truncation branch (:292-295) keeps the selection start, although `CaretIndex = caretIndex` collapses the selection onto the caret in WPF. Scenarios.SeparatorEmptiesField states the resulting empty text with a selection start of 2.
- Deletion.DeleteSeparatorNoSelection and Deletion.DeleteSelectionWithSeparator: the selection fields are as the handler leaves them. The collapse caused by the caret writes at :74, :80, :98 and :105 is not modelled.
- Corrections.RevalidationFlips: stated for Decimal mode only, assuming the library reads back the two bounds it formats. The Integer path has the same reversal (it goes through the same `ValidateLimits` call).
- Corrections.ValidateControlIntendedSettles: stated for Decimal mode only, under the assumption that the library reads back the clamped value it formats within the fraction limit.

## Findings

| source | as written | input that shows it | evidently intended | confidence | as-written member | corrected member |
|---|---|---|---|---|---|---|
| Wpf.NumericMaskBehavior/NumericMaskBehavior/TextBoxNumericMaskBehavior.cs:217-224 | `ValidateControl` passes (MinimumValue, MaximumValue) into `ValidateTextBox`'s (maximumValue, minimumValue) parameters, so re-validation clamps with the bounds reversed | Decimal, MinimumValue -1000, MaximumValue 1000, text "5": re-validated to the formatted 1000, then to the formatted -1000 | pass the bounds by name, as the paste handler does; re-validation then keeps "5" and settles | not executed | Corrections.RevalidationFlips | Corrections.ValidateControlIntendedSettles |
| Wpf.NumericMaskBehavior/NumericMaskBehavior/TextBoxNumericMaskBehaviorCore.cs:387-393 | `length - IndexOf(separator) > decimalPlaces` also refuses exactly decimalPlaces fraction digits | Decimal, decimalPlaces 2, "12.56" (typeable key by key) validates to "" | refuse only more than decimalPlaces fraction digits | not executed | Corrections.ExactPlacesErased | Corrections.ValidateValueIntendedDecimal |
| Wpf.NumericMaskBehavior/NumericMaskBehavior/TextBoxNumericMaskBehaviorCore.cs:289-298 | `CalculateDecPartLength` rounds caret + decimalPlaces down to a multiple of the text length, which is 0 here | "12345", caret 2, decimalPlaces 2, typing "." empties the field | keep the text up to caret + decimalPlaces: "12.34" | not executed | Corrections.SeparatorMidTextEmpties | Corrections.DecPartLengthIntendedKeepsPlaces |
| Wpf.NumericMaskBehavior/NumericMaskBehavior/TextBoxNumericMaskBehaviorCore.cs:273-278 | the integer part before the separator is measured as `separatorIndex - 1` characters | "12.5", caret 0, integerPlaces 2, typing "3" gives "312.5" | measure `separatorIndex` characters, refusing the digit | not executed | Corrections.IntegerPartOverflows | Corrections.IntegerPartBound |

=== FILE: corrections.dfy ===
/**
 Four places where the code does something its surroundings show was not
 meant. For each: a lemma about the behavior as written that exhibits the
 discrepancy, and a corrected definition with the intended property proved.

 1. Re-validation after an option change clamps with the bounds reversed.
 2. ValidateValue erases a decimal with exactly `decimalPlaces` fraction digits.
 3. Typing the separator in the middle of a number can empty the field.
 4. The integer-place check before the separator is one place short.
 */
module Corrections {
  import opened Runtime
  import opened Strings
  import opened Mask
  import opened Limits
  import opened Keystroke
  import KeystrokeFacts
  import Normalize
  import Host

  // ---------------------------------------------------------------------------
  // 1. Re-validation with reversed bounds

  /**
   As written, re-validating a Decimal value strictly inside [minimum, maximum]
   shows the maximum, and re-validating that shows the minimum: the field flips
   between the two bounds instead of settling. (The library is only assumed to
   read back the two bounds it formats.)
   */
  lemma RevalidationFlips(text: string, sym: Symbols, lib: Library,
                          minimumValue: DecimalValue, maximumValue: DecimalValue,
                          decimalPlaces: Byte, x: DecimalValue)
    requires HasLower(minimumValue) && HasUpper(maximumValue) && minimumValue < x < maximumValue
    requires text != []
    requires lib.parseDecimal(lib.trim(text)) == Some(x)
    requires sym.separator !in lib.trim(text) || CharsAfterFirst(lib.trim(text), sym.separator) < decimalPlaces
    requires lib.formatDecimal(maximumValue) != []
    requires lib.parseDecimal(lib.trim(lib.formatDecimal(maximumValue))) == Some(maximumValue)
    requires lib.parseDecimal(lib.trim(lib.formatDecimal(minimumValue))) == Some(minimumValue)
    requires var t := lib.trim(lib.formatDecimal(maximumValue));
             sym.separator !in t || CharsAfterFirst(t, sym.separator) < decimalPlaces
    ensures Host.ValidateControl(text, sym, lib, Decimal, minimumValue, maximumValue, decimalPlaces)
            == Ok(lib.formatDecimal(maximumValue))
    ensures Host.ValidateControl(lib.formatDecimal(maximumValue), sym, lib, Decimal,
                                 minimumValue, maximumValue, decimalPlaces)
            == Ok(lib.formatDecimal(minimumValue))
    ensures lib.formatDecimal(minimumValue) != lib.formatDecimal(maximumValue)
  {
    Host.ValidateControlReversesBounds(text, sym, lib, minimumValue, maximumValue, decimalPlaces, x);
    Host.ValidateControlReversesBounds(lib.formatDecimal(maximumValue), sym, lib, minimumValue, maximumValue,
                                       decimalPlaces, maximumValue);
  }

  /**
   The reversal bites with the default, unset bounds as well: decimal.MaxValue
   in the lower slot is a set bound, so every Decimal value below it is shown
   as decimal.MaxValue, decimal.MaxValue itself as decimal.MinValue, and every
   Integer value overflows the cast.
   */
  lemma DefaultBoundsPinToMaximum(text: string, sym: Symbols, lib: Library, decimalPlaces: Byte)
    requires text != []
    ensures var v := lib.trim(text);
            lib.parseDecimal(v).Some? && lib.parseDecimal(v).value < DecimalMaxValue
            && !(sym.separator in v && CharsAfterFirst(v, sym.separator) >= decimalPlaces) ==>
              Host.ValidateControl(text, sym, lib, Decimal, DecimalMinValue, DecimalMaxValue, decimalPlaces)
              == Ok(lib.formatDecimal(DecimalMaxValue))
    ensures var v := lib.trim(text);
            lib.parseDecimal(v) == Some(DecimalMaxValue)
            && !(sym.separator in v && CharsAfterFirst(v, sym.separator) >= decimalPlaces) ==>
              Host.ValidateControl(text, sym, lib, Decimal, DecimalMinValue, DecimalMaxValue, decimalPlaces)
              == Ok(lib.formatDecimal(DecimalMinValue))
    ensures lib.parseInt(lib.trim(text)).Some? ==>
              Host.ValidateControl(text, sym, lib, Integer, DecimalMinValue, DecimalMaxValue, decimalPlaces)
              == Fail(Overflow)
  {
  }

  /** ValidateControl passing the bounds into ValidateTextBox's slots by their names. */
  function ValidateControlIntended(text: string, sym: Symbols, lib: Library, mask: MaskType,
                                   minimumValue: DecimalValue, maximumValue: DecimalValue,
                                   decimalPlaces: Byte): (r: Result<string>)
    ensures mask == Any ==> r == Ok(text)
    ensures text == [] ==> r == Ok([])
  {
    Normalize.ValidateTextBox(text, sym, lib, mask, maximumValue, minimumValue, decimalPlaces)
  }

  /**
   Corrected re-validation clamps a Decimal value into [minimum, maximum], keeps
   a value already inside, and re-validating its own output changes nothing
   when the library reads back what it formats.
   */
  lemma ValidateControlIntendedSettles(text: string, sym: Symbols, lib: Library,
                                       minimumValue: DecimalValue, maximumValue: DecimalValue,
                                       decimalPlaces: Byte, x: DecimalValue)
    requires minimumValue <= maximumValue
    requires text != []
    requires lib.parseDecimal(lib.trim(text)) == Some(x)
    requires sym.separator !in lib.trim(text) || CharsAfterFirst(lib.trim(text), sym.separator) < decimalPlaces
    requires var y := ValidateLimits(minimumValue, maximumValue, x);
             var t := lib.trim(lib.formatDecimal(y));
             && lib.formatDecimal(y) != [] && lib.parseDecimal(t) == Some(y)
             && (sym.separator !in t || CharsAfterFirst(t, sym.separator) < decimalPlaces)
    ensures var y := ValidateLimits(minimumValue, maximumValue, x);
            var once := ValidateControlIntended(text, sym, lib, Decimal, minimumValue, maximumValue, decimalPlaces);
            && once == Ok(lib.formatDecimal(y))
            && InRange(minimumValue, maximumValue, y)
            && (InRange(minimumValue, maximumValue, x) ==> y == x)
            && ValidateControlIntended(once.value, sym, lib, Decimal, minimumValue, maximumValue, decimalPlaces) == once
  {
    var y := ValidateLimits(minimumValue, maximumValue, x);
    Normalize.ValidateTextBoxLowerIsSecond(text, sym, lib, maximumValue, minimumValue, decimalPlaces, x);
    Normalize.ValidateTextBoxLowerIsSecond(lib.formatDecimal(y), sym, lib, maximumValue, minimumValue,
                                           decimalPlaces, y);
    ValidateLimitsIdempotent(minimumValue, maximumValue, x);
  }

  // ---------------------------------------------------------------------------
  // 2. The fraction check of ValidateValue

  /**
   As written, ValidateValue erases a parsed Decimal text with EXACTLY
   `decimalPlaces` characters after its separator, which is as many as the
   keystroke handler lets one type; the corrected check keeps it.
   */
  lemma ExactPlacesErased(s: string, sym: Symbols, lib: Library, first: DecimalValue, second: DecimalValue,
                          decimalPlaces: Byte, x: DecimalValue)
    requires s != []
    requires lib.parseDecimal(lib.trim(s)) == Some(x)
    requires sym.separator in lib.trim(s) && CharsAfterFirst(lib.trim(s), sym.separator) == decimalPlaces
    ensures Normalize.ValidateValue(Some(s), sym, lib, Decimal, first, second, decimalPlaces) == Ok([])
    ensures ValidateValueIntended(Some(s), sym, lib, Decimal, first, second, decimalPlaces)
            == Ok(lib.formatDecimal(ValidateLimits(first, second, x)))
  {
    Normalize.DecimalRefused(s, sym, lib, first, second, decimalPlaces);
  }

  /** More than `decimalPlaces` characters follow the first separator. */
  predicate FractionTooLong(v: string, sep: char, decimalPlaces: Byte) {
    sep in v && CharsAfterFirst(v, sep) > decimalPlaces
  }

  /** ValidateValue with the fraction test counting the characters after the separator. */
  function ValidateValueIntended(value: Option<string>, sym: Symbols, lib: Library, mask: MaskType,
                                 lower: DecimalValue, upper: DecimalValue, decimalPlaces: Byte): (r: Result<string>)
    ensures value.None? || value == Some([]) ==> r == Ok([])
    ensures r.Fail? ==> mask == Integer && r.fault == Overflow
  {
    if value.None? || value.value == [] then Ok([])
    else
      var v := lib.trim(value.value);
      match mask
      case Integer =>
        (match lib.parseInt(v)
         case None => Ok([])
         case Some(n) =>
           match ToInt32(ValidateLimits(lower, upper, n as real))
           case Fail(f) => Fail(f)
           case Ok(k) => Ok(lib.formatInt(k)))
      case Decimal =>
        (match lib.parseDecimal(v)
         case None => Ok([])
         case Some(x) =>
           if FractionTooLong(v, sym.separator, decimalPlaces) then Ok([])
           else Ok(lib.formatDecimal(ValidateLimits(lower, upper, x))))
      case Any => Ok(v)
  }

  /**
   The corrected Decimal validation keeps a parsed text exactly when at most
   `decimalPlaces` characters follow its separator, and then shows the clamped
   value; it differs from the code as written only on texts with exactly
   `decimalPlaces` of them.
   */
  lemma ValidateValueIntendedDecimal(s: string, sym: Symbols, lib: Library, lower: DecimalValue, upper: DecimalValue,
                                     decimalPlaces: Byte, x: DecimalValue)
    requires s != []
    requires lib.parseDecimal(lib.trim(s)) == Some(x)
    ensures var v := lib.trim(s);
            var r := ValidateValueIntended(Some(s), sym, lib, Decimal, lower, upper, decimalPlaces);
            && (!FractionTooLong(v, sym.separator, decimalPlaces) ==> r == Ok(lib.formatDecimal(ValidateLimits(lower, upper, x))))
            && (FractionTooLong(v, sym.separator, decimalPlaces) ==> r == Ok([]))
            && (r != Normalize.ValidateValue(Some(s), sym, lib, Decimal, lower, upper, decimalPlaces)
                ==> sym.separator in v && CharsAfterFirst(v, sym.separator) == decimalPlaces)
  {
    Normalize.TooManyDecimalsMeaning(lib.trim(s), sym.separator, decimalPlaces);
  }

  // ---------------------------------------------------------------------------
  // 3. CalculateDecPartLength at the separator insertion

  /**
   As written, typing the separator in the middle of a number without one,
   with more than `decimalPlaces` characters after the caret, empties the
   field: CalculateDecPartLength rounds the kept length down to 0.
   */
  lemma SeparatorMidTextEmpties(st: EditState, sym: Symbols, lib: Library, decimalPlaces: Byte, integerPlaces: Byte)
    requires st.WellFormed() && st.selLen == 0
    requires sym.separator != sym.negativeSign
    requires 0 < st.caret && st.caret + decimalPlaces < |st.text|
    requires sym.separator !in st.text
    requires lib.parseDecimal(st.text[..st.caret] + [sym.separator] + st.text[st.caret..]).Some?
    ensures PreviewTextInput(st, [sym.separator], sym, lib, Decimal, decimalPlaces, integerPlaces)
            == Handled(EditState([], st.caret + 1, st.selStart, 0))
  {
    var ev := [sym.separator];
    assert !KeystrokeFacts.Refused(st, ev, sym, lib, Decimal, decimalPlaces);
    KeystrokeFacts.AdmittedWhenNotRefused(st, ev, sym, lib, Decimal, decimalPlaces, integerPlaces);
    var text := st.text;
    var isNegative := StartsWith(text, [sym.negativeSign]);
    assert IndexOf(text, sym.separator) == -1;
    assert AdmittedInput(st, ev, sym, lib, decimalPlaces, integerPlaces)
           == CaretInput(st, text, st.caret, ev, sym, lib, decimalPlaces, integerPlaces, -1, isNegative);
    assert CaretInput(st, text, st.caret, ev, sym, lib, decimalPlaces, integerPlaces, -1, isNegative)
           == InsertAt(st, text, st.caret, ev, sym, lib, decimalPlaces, -1);
    var newValue := text[..st.caret] + ev + text[st.caret..];
    DecPartLengthAtCallSite(st.caret + 1, decimalPlaces, newValue);
  }

  /** The intended length: keep up to `decimalPlaces` characters after the caret, or everything. */
  function DecPartLengthIntended(caretIndex: int, decimalPlaces: Byte, inputText: string): int {
    if caretIndex + decimalPlaces < |inputText| then caretIndex + decimalPlaces else |inputText|
  }

  /**
   With the intended length, typing the separator into a number without one
   keeps everything before the caret, the separator, and at most
   `decimalPlaces` of the characters after it (all of them when they fit).
   */
  lemma DecPartLengthIntendedKeepsPlaces(text: string, caret: int, sep: char, decimalPlaces: Byte)
    requires 0 <= caret <= |text| && sep !in text
    ensures var newValue := text[..caret] + [sep] + text[caret..];
            var kept := newValue[..DecPartLengthIntended(caret + 1, decimalPlaces, newValue)];
            && kept[..caret] == text[..caret]
            && sep in kept && IndexOf(kept, sep) == caret
            && CharsAfterFirst(kept, sep) == (if |text| - caret < decimalPlaces then |text| - caret else decimalPlaces)
  {
    var newValue := text[..caret] + [sep] + text[caret..];
    var kept := newValue[..DecPartLengthIntended(caret + 1, decimalPlaces, newValue)];
    assert kept[..caret] == text[..caret];
    assert kept[caret] == sep;
    assert sep !in kept[..caret];
    assert IndexOf(kept, sep) == caret;
    CharsAfterFirstIndex(kept, sep);
  }

  // ---------------------------------------------------------------------------
  // 4. The integer-place check before the separator

  /**
   As written, a character typed before the separator is admitted while the
   integer part is exactly `integerPlaces` long (the check measures one
   character fewer), so the integer part grows to integerPlaces + 1.
   */
  lemma IntegerPartOverflows(st: EditState, d: char, sym: Symbols, lib: Library,
                             decimalPlaces: Byte, integerPlaces: Byte)
    requires st.WellFormed() && st.selLen == 0
    requires 0 < integerPlaces < |st.text|
    requires sym.separator in st.text && IndexOf(st.text, sym.separator) == integerPlaces
    requires !StartsWith(st.text, [sym.negativeSign])
    requires st.caret <= integerPlaces
    requires lib.isDigit(d) && d != sym.separator && d != sym.negativeSign && d != '0'
    requires lib.parseDecimal(st.text[..st.caret] + [d] + st.text[st.caret..]).Some?
    ensures var newText := st.text[..st.caret] + [d] + st.text[st.caret..];
            && PreviewTextInput(st, [d], sym, lib, Decimal, decimalPlaces, integerPlaces)
               == Handled(Commit(st, newText, st.caret + 1))
            && IndexOf(newText, sym.separator) == integerPlaces + 1
  {
    CaretInDecimalPartMeaning(st.text, sym.separator, st.caret);
    assert !KeystrokeFacts.Refused(st, [d], sym, lib, Decimal, decimalPlaces);
    KeystrokeFacts.AdmittedWhenNotRefused(st, [d], sym, lib, Decimal, decimalPlaces, integerPlaces);
    DigitBeforeSeparator(st, d, sym, lib, decimalPlaces, integerPlaces);
    IndexOfAfterInsert(st.text, st.caret, d, sym.separator);
  }

  /**
   Past the gates, a digit typed at or before the separator of an unsigned
   text whose integer part is exactly `integerPlaces` long is spliced in.
   */
  lemma DigitBeforeSeparator(st: EditState, d: char, sym: Symbols, lib: Library,
                             decimalPlaces: Byte, integerPlaces: Byte)
    requires st.WellFormed() && st.selLen == 0
    requires 0 < integerPlaces < |st.text|
    requires sym.separator in st.text && IndexOf(st.text, sym.separator) == integerPlaces
    requires !StartsWith(st.text, [sym.negativeSign])
    requires st.caret <= integerPlaces
    requires d != sym.separator && d != sym.negativeSign && d != '0'
    requires lib.parseDecimal(st.text[..st.caret] + [d] + st.text[st.caret..]).Some?
    ensures AdmittedInput(st, [d], sym, lib, decimalPlaces, integerPlaces)
            == Handled(Commit(st, st.text[..st.caret] + [d] + st.text[st.caret..], st.caret + 1))
  {
    var text := st.text;
    var k := integerPlaces;
    assert AdmittedInput(st, [d], sym, lib, decimalPlaces, integerPlaces)
           == CaretInput(st, text, st.caret, [d], sym, lib, decimalPlaces, integerPlaces, k, false);
    assert |text[..k - 1]| == k - 1;
  }

  /** The intended check: the integer part, less a leading sign, already fills `integerPlaces`. */
  predicate IntegerPartFull(separatorIndex: int, isNegative: bool, integerPlaces: Byte) {
    separatorIndex - (if isNegative then 1 else 0) >= integerPlaces
  }

  /**
   On "12.5" with two integer places and the caret before the separator, the
   check as written finds room for a digit, while the intended check finds
   the integer part full and refuses it.
   */
  lemma IntendedRefusesThirdDigit()
    ensures var text := "12.5";
            var i := IndexOf(text, '.');
            && !(|text[..i - 1]| >= 2)
            && IntegerPartFull(i, StartsWith(text, "-"), 2)
  {
    assert "12.5"[0] != '.' && "12.5"[1] != '.' && "12.5"[2] == '.';
  }

  /**
   With the intended check, a character admitted before the separator leaves
   an integer part of at most `integerPlaces`; as written, the bound is one
   more.
   */
  lemma IntegerPartBound(text: string, caret: int, ev: string, sep: char, neg: char, integerPlaces: Byte)
    requires sep in text && 0 <= caret <= IndexOf(text, sep) && |ev| == 1 && ev[0] != sep
    ensures var newText := text[..caret] + ev + text[caret..];
            var isNegative := StartsWith(text, [neg]);
            var sign := if isNegative then 1 else 0;
            && IndexOf(newText, sep) == IndexOf(text, sep) + 1
            && (!IntegerPartFull(IndexOf(text, sep), isNegative, integerPlaces)
                <==> IndexOf(newText, sep) - sign <= integerPlaces)
            && (IndexOf(text, sep) > 0 && !(|text[..IndexOf(text, sep) - 1]| - sign >= integerPlaces)
                ==> IndexOf(newText, sep) - sign <= integerPlaces + 1)
  {
    assert ev == [ev[0]];
    IndexOfAfterInsert(text, caret, ev[0], sep);
  }
}

=== FILE: deletion.dfy ===
/**
 PreviewKeyDownCallBack: Backspace and Delete when they would remove the
 decimal separator. Any other key, or a deletion that does not touch the
 separator, is left unhandled for the widget's own editing.
 */
module Deletion {
  import opened Runtime
  import opened Strings
  import opened Mask

  /** The keys the handler distinguishes. */
  datatype Key = Back | Delete | Other

  /**
   The deletion removes a separator: the character before the caret when
   nothing is selected (for Delete as well as Backspace), otherwise some
   character of the selection.
   */
  predicate DeletesSeparator(st: EditState, sep: char)
    requires st.WellFormed()
  {
    if st.selLen == 0 then 0 < st.caret && st.text[st.caret - 1] == sep
    else sep in st.Selected()
  }

  /** `p` is a prefix of `s`. */
  predicate IsPrefix(p: string, s: string) {
    |p| <= |s| && s[..|p|] == p
  }

  /**
   PreviewKeyDownCallBack. Without a selection, the text is cut at its first
   separator and the caret moves back one; but when the ORIGINAL text, less a
   leading sign, is at least integerPlaces long, the text becomes its first
   integerPlaces characters and the caret goes to the original length. With a
   selection, the selection is removed and at most integerPlaces characters
   after it are kept; a result longer than integerPlaces (less a sign of the
   original) is cut to integerPlaces, the caret again going to the original
   length.
   */
  function PreviewKeyDown(st: EditState, key: Key, sym: Symbols, integerPlaces: Byte): (r: Reaction)
    requires st.WellFormed()
    ensures !r.Thrown?
    ensures r.Handled? <==> (key == Back || key == Delete) && 0 < st.caret && DeletesSeparator(st, sym.separator)
  {
    if key != Back && key != Delete then Unhandled
    else if st.caret <= 0 then Unhandled
    else
      var text := st.text;
      var isNegative := StartsWith(text, [sym.negativeSign]);
      var sign := if isNegative then 1 else 0;
      if st.selLen == 0 then
        if text[st.caret - 1] == sym.separator then
          if |text| - sign >= integerPlaces then
            Handled(st.(text := text[..integerPlaces], caret := |text|))
          else
            Handled(st.(text := text[..IndexOf(text, sym.separator)], caret := st.caret - 1))
        else Unhandled
      else
        var end := st.selStart + st.selLen;
        if sym.separator in st.Selected() then
          var remainderPlaces := |text| - end;
          var kept := if remainderPlaces >= integerPlaces then integerPlaces else remainderPlaces;
          var spliced := text[..st.selStart] + text[end..end + kept];
          if |spliced| - sign > integerPlaces then
            Handled(st.(text := spliced[..integerPlaces], caret := |text|))
          else
            Handled(st.(text := spliced, caret := st.selStart))
        else Unhandled
  }

  /**
   Deleting the separator with nothing selected keeps a prefix of the text.
   Either everything from the first separator on is dropped and the caret moves
   back one, or (the original being integerPlaces long or more, less a sign)
   exactly integerPlaces characters remain and the caret is left at the
   original length, possibly past the end of the new text.
   */
  lemma DeleteSeparatorNoSelection(st: EditState, key: Key, sym: Symbols, integerPlaces: Byte)
    requires st.WellFormed() && st.selLen == 0 && 0 < st.caret
    requires key == Back || key == Delete
    requires st.text[st.caret - 1] == sym.separator
    ensures var r := PreviewKeyDown(st, key, sym, integerPlaces);
            var sign := if StartsWith(st.text, [sym.negativeSign]) then 1 else 0;
      && r.Handled?
      && IsPrefix(r.state.text, st.text)
      && r.state.selLen == 0 && r.state.selStart == st.selStart
      && (|st.text| - sign >= integerPlaces ==>
            |r.state.text| == integerPlaces && r.state.caret == |st.text|)
      && (|st.text| - sign < integerPlaces ==>
            && sym.separator !in r.state.text && st.text[|r.state.text|] == sym.separator
            && r.state.caret == st.caret - 1)
  {
  }

  /**
   Deleting a selection that holds the separator removes the selection and
   keeps at most integerPlaces of the characters after it, with the caret at
   the selection start. When that is still longer than integerPlaces (less a
   leading sign of the original), it is cut to integerPlaces characters and
   the caret goes to the original length.
   */
  lemma DeleteSelectionWithSeparator(st: EditState, key: Key, sym: Symbols, integerPlaces: Byte)
    requires st.WellFormed() && st.selLen > 0 && 0 < st.caret
    requires key == Back || key == Delete
    requires sym.separator in st.Selected()
    ensures var r := PreviewKeyDown(st, key, sym, integerPlaces);
            var end := st.selStart + st.selLen;
            var after := st.text[end..];
            var sign := if StartsWith(st.text, [sym.negativeSign]) then 1 else 0;
            var kept := st.text[..st.selStart] + after[..if |after| >= integerPlaces then integerPlaces else |after|];
      && r.Handled?
      && IsPrefix(r.state.text, st.text[..st.selStart] + st.text[st.selStart + st.selLen..])
      && |r.state.text| <= integerPlaces + sign
      && r.state.selStart == st.selStart && r.state.selLen == st.selLen
      && (|kept| - sign <= integerPlaces ==> r.state.text == kept && r.state.caret == st.selStart)
      && (|kept| - sign > integerPlaces ==> r.state.text == kept[..integerPlaces] && r.state.caret == |st.text|)
  {
    var text := st.text;
    var end := st.selStart + st.selLen;
    var remainderPlaces := |text| - end;
    var kept := if remainderPlaces >= integerPlaces then integerPlaces else remainderPlaces;
    var spliced := text[..st.selStart] + text[end..end + kept];
    assert text[end..end + kept] == text[end..][..kept];
    assert IsPrefix(spliced, text[..st.selStart] + text[end..]) by {
      assert (text[..st.selStart] + text[end..])[..|spliced|] == spliced;
    }
  }
}

=== FILE: host.dfy ===
/**
 The two places where the behavior class hands its stored settings to the
 core: ValidateControl, run after any option changes, and its own paste
 handler. Only the order in which they pass the two bounds matters here.
 */
module Host {
  import opened Runtime
  import opened Strings
  import opened Mask
  import opened Limits
  import Normalize

  /**
   ValidateControl: the stored MinimumValue and MaximumValue are passed to
   ValidateTextBox in that order, that is, into its (maximumValue,
   minimumValue) slots.
   */
  function ValidateControl(text: string, sym: Symbols, lib: Library, mask: MaskType,
                           minimumValue: DecimalValue, maximumValue: DecimalValue,
                           decimalPlaces: Byte): (r: Result<string>)
    ensures mask == Any ==> r == Ok(text)
    ensures text == [] ==> r == Ok([])
    ensures r.Fail? ==> mask == Integer && r.fault == Overflow
    // Decimal: a value that parses and fits is clamped with maximumValue as the LOWER limit
    ensures mask == Decimal && text != [] && lib.parseDecimal(lib.trim(text)).Some?
            && !(sym.separator in lib.trim(text) && CharsAfterFirst(lib.trim(text), sym.separator) >= decimalPlaces) ==>
              r == Ok(lib.formatDecimal(ValidateLimits(maximumValue, minimumValue, lib.parseDecimal(lib.trim(text)).value)))
    // Decimal: a value that does not parse, or has too many decimals, empties the field
    ensures mask == Decimal && text != []
            && (|| lib.parseDecimal(lib.trim(text)).None?
                || (sym.separator in lib.trim(text) && CharsAfterFirst(lib.trim(text), sym.separator) >= decimalPlaces)) ==>
              r == Ok([])
    // Integer: the same reversed clamp, then the cast to a 32-bit integer
    ensures mask == Integer && text != [] && lib.parseInt(lib.trim(text)).Some? ==>
              var c := ToInt32(ValidateLimits(maximumValue, minimumValue, lib.parseInt(lib.trim(text)).value as real));
              && (c.Ok? ==> r == Ok(lib.formatInt(c.value)))
              && (c.Fail? ==> r == Fail(c.fault))
    ensures mask == Integer && text != [] && lib.parseInt(lib.trim(text)).None? ==> r == Ok([])
  {
    Normalize.TooManyDecimalsMeaning(lib.trim(text), sym.separator, decimalPlaces);
    Normalize.ValidateTextBox(text, sym, lib, mask, minimumValue, maximumValue, decimalPlaces)
  }

  /**
   Re-validation clamps with the bounds reversed: with both bounds set and
   minimum < maximum, a Decimal value strictly inside the range is shown as the
   MAXIMUM, and a value at or above the maximum as the minimum.
   */
  lemma ValidateControlReversesBounds(text: string, sym: Symbols, lib: Library,
                                      minimumValue: DecimalValue, maximumValue: DecimalValue,
                                      decimalPlaces: Byte, x: DecimalValue)
    requires HasLower(minimumValue) && HasUpper(maximumValue) && minimumValue < maximumValue
    requires text != []
    requires lib.parseDecimal(lib.trim(text)) == Some(x)
    requires sym.separator !in lib.trim(text) || CharsAfterFirst(lib.trim(text), sym.separator) < decimalPlaces
    ensures x < maximumValue ==>
              ValidateControl(text, sym, lib, Decimal, minimumValue, maximumValue, decimalPlaces)
              == Ok(lib.formatDecimal(maximumValue))
    ensures maximumValue <= x ==>
              ValidateControl(text, sym, lib, Decimal, minimumValue, maximumValue, decimalPlaces)
              == Ok(lib.formatDecimal(minimumValue))
  {
    Normalize.ValidateTextBoxLowerIsSecond(text, sym, lib, minimumValue, maximumValue, decimalPlaces, x);
  }

  /**
   The behavior's paste handler passes (MinimumValue, MaximumValue) straight to
   ValidateValue, which is what the core's own paste handler does with its
   (maximumValue, minimumValue) parameters: the two agree, and a pasted value
   within the range is kept.
   */
  function HostPaste(current: string, clipboard: Option<string>, sym: Symbols, lib: Library, mask: MaskType,
                     minimumValue: DecimalValue, maximumValue: DecimalValue,
                     decimalPlaces: Byte): (r: Result<Normalize.PasteOutcome>)
    ensures r.Ok? ==> r.value.cancelled && r.value.handled
  {
    match Normalize.ValidateValue(clipboard, sym, lib, mask, minimumValue, maximumValue, decimalPlaces)
    case Fail(f) => Fail(f)
    case Ok(s) => Ok(Normalize.PasteOutcome(if s != [] then s else current, true, true))
  }

  /** The behavior's paste is the core paste handler given the bounds under their own names. */
  lemma HostPasteIsCorePaste(current: string, clipboard: Option<string>, sym: Symbols, lib: Library,
                             mask: MaskType, minimumValue: DecimalValue, maximumValue: DecimalValue,
                             decimalPlaces: Byte)
    ensures HostPaste(current, clipboard, sym, lib, mask, minimumValue, maximumValue, decimalPlaces)
            == Normalize.Paste(current, clipboard, sym, lib, mask, maximumValue, minimumValue, decimalPlaces)
  {
  }

  /** A pasted Decimal value within [minimum, maximum] is kept, as its formatted text. */
  lemma HostPasteKeepsInRange(current: string, s: string, sym: Symbols, lib: Library,
                              minimumValue: DecimalValue, maximumValue: DecimalValue,
                              decimalPlaces: Byte, x: DecimalValue)
    requires s != []
    requires lib.parseDecimal(lib.trim(s)) == Some(x)
    requires sym.separator !in lib.trim(s) || CharsAfterFirst(lib.trim(s), sym.separator) < decimalPlaces
    requires InRange(minimumValue, maximumValue, x)
    requires lib.formatDecimal(x) != []
    ensures HostPaste(current, Some(s), sym, lib, Decimal, minimumValue, maximumValue, decimalPlaces)
            == Ok(Normalize.PasteOutcome(lib.formatDecimal(x), true, true))
  {
    Normalize.DecimalAccepted(s, sym, lib, minimumValue, maximumValue, decimalPlaces, x);
  }
}

=== FILE: invariant_culture.dfy ===
/**
 A concrete stand-in for the .NET calls the behavior makes, in the invariant
 culture: '.' separates the fraction and '-' is the sign. Parsing accepts
 [-]digits[.digits] with at least one digit; trimming removes spaces;
 formatting writes the shortest digits of the value. It serves the worked
 examples; the properties elsewhere hold for every `Library`.
 */
module InvariantCulture {
  import opened Runtime
  import opened Strings

  predicate IsAsciiDigit(c: char) { '0' <= c <= '9' }

  predicate Digits(s: string) { forall i | 0 <= i < |s| :: IsAsciiDigit(s[i]) }

  function DigitValue(c: char): nat
    requires IsAsciiDigit(c)
  {
    c as int - '0' as int
  }

  function DigitChar(d: nat): char
    requires d < 10
  {
    ('0' as int + d) as char
  }

  /** The natural number the digits spell, most significant first. */
  function WholeValue(s: string): nat
    requires Digits(s)
  {
    if |s| == 0 then 0 else WholeValue(s[..|s| - 1]) * 10 + DigitValue(s[|s| - 1])
  }

  /** The value of the digits after a decimal point: always in [0, 1). */
  function FractionValue(s: string): (r: real)
    requires Digits(s)
    ensures 0.0 <= r < 1.0
  {
    if |s| == 0 then 0.0 else (DigitValue(s[0]) as real + FractionValue(s[1..])) / 10.0
  }

  /** Leading and trailing spaces removed. */
  function TrimSpaces(s: string): (r: string)
    ensures |r| <= |s|
    ensures r != [] ==> r[0] != ' ' && r[|r| - 1] != ' '
  {
    if |s| > 0 && s[0] == ' ' then TrimSpaces(s[1..])
    else if |s| > 0 && s[|s| - 1] == ' ' then TrimSpaces(s[..|s| - 1])
    else s
  }

  /** The magnitude of an optionally signed number: its digits before and after the point. */
  datatype Numeral = Numeral(negative: bool, whole: string, fraction: string, hasPoint: bool)

  /** Split at the sign and the first point. */
  function Split(s: string): Numeral {
    var negative := |s| > 0 && s[0] == '-';
    var body := if negative then s[1..] else s;
    var i := IndexOf(body, '.');
    if i < 0 then Numeral(negative, body, [], false)
    else Numeral(negative, body[..i], body[i + 1..], true)
  }

  /** decimal.TryParse: the grammar above, refusing magnitudes beyond decimal.MaxValue. */
  function ParseDecimal(s: string): (r: Option<DecimalValue>)
    ensures r.Some? ==> s != [] && Digits(Split(s).whole) && Digits(Split(s).fraction)
  {
    var n := Split(s);
    if Digits(n.whole) && Digits(n.fraction) && '.' !in n.fraction && |n.whole| + |n.fraction| > 0 then
      var v := WholeValue(n.whole) as real + FractionValue(n.fraction);
      if v <= DecimalMaxValue then Some(if n.negative then -v else v) else None
    else None
  }

  /** int.TryParse: an optional sign and at least one digit, within Int32. */
  function ParseInt(s: string): (r: Option<Int32>)
    ensures r.Some? ==> '.' !in s
  {
    var n := Split(s);
    if !n.hasPoint && Digits(n.whole) && |n.whole| > 0 then
      var v := if n.negative then -(WholeValue(n.whole) as int) else WholeValue(n.whole) as int;
      if -0x8000_0000 <= v < 0x8000_0000 then Some(v) else None
    else None
  }

  /** The decimal digits of a natural number, without leading zeros. */
  function WholeDigits(n: nat): (r: string)
    ensures r != [] && Digits(r)
  {
    if n < 10 then [DigitChar(n)] else WholeDigits(n / 10) + [DigitChar(n % 10)]
  }

  /** Up to `fuel` digits of a fraction in [0, 1), stopping once the rest is 0. */
  function FractionDigits(f: real, fuel: nat): (r: string)
    requires 0.0 <= f < 1.0
    ensures Digits(r)
    decreases fuel
  {
    if f == 0.0 || fuel == 0 then []
    else
      var d := (f * 10.0).Floor;
      [DigitChar(d)] + FractionDigits(f * 10.0 - d as real, fuel - 1)
  }

  /** A signed integer in decimal digits. */
  function FormatInt(n: Int32): string {
    var m: int := n;
    if m < 0 then ['-'] + WholeDigits(-m) else WholeDigits(m)
  }

  /** A decimal value: sign, integer digits and, when not whole, a point and up to 28 fraction digits. */
  function FormatDecimal(x: DecimalValue): string {
    var m := if x < 0.0 then -x else x;
    var w := m.Floor;
    var f := m - w as real;
    (if x < 0.0 then ['-'] else []) + WholeDigits(w) + (if f == 0.0 then [] else ['.'] + FractionDigits(f, 28))
  }

  /** Reading back the digits of a natural number gives the number. */
  lemma {:induction false} WholeRoundTrip(n: nat)
    ensures WholeValue(WholeDigits(n)) == n
  {
    if n >= 10 {
      var s := WholeDigits(n);
      WholeRoundTrip(n / 10);
      assert s[..|s| - 1] == WholeDigits(n / 10);
      assert s[|s| - 1] == DigitChar(n % 10);
    }
  }

  function Pow10(n: nat): (r: nat)
    ensures r >= 1
  {
    if n == 0 then 1 else 10 * Pow10(n - 1)
  }

  /** n digits spell a number below 10^n. */
  lemma {:induction false} WholeValueBound(s: string)
    requires Digits(s)
    ensures WholeValue(s) < Pow10(|s|)
  {
    if |s| > 0 {
      WholeValueBound(s[..|s| - 1]);
    }
  }

  lemma {:induction false} Pow10Monotone(m: nat, n: nat)
    requires m <= n
    ensures Pow10(m) <= Pow10(n)
  {
    if m < n {
      Pow10Monotone(m, n - 1);
    }
  }

  lemma {:induction false} Pow10Add(a: nat, b: nat)
    ensures Pow10(a + b) == Pow10(a) * Pow10(b)
  {
    if b > 0 {
      Pow10Add(a, b - 1);
    }
  }

  /** Digits split as an unsigned or a signed whole number. */
  lemma SplitDigits(digits: string)
    requires Digits(digits) && |digits| > 0
    ensures Split(digits) == Numeral(false, digits, [], false)
    ensures Split(['-'] + digits) == Numeral(true, digits, [], false)
  {
    assert IsAsciiDigit(digits[0]);
    assert '.' !in digits;
    assert (['-'] + digits)[1..] == digits;
  }

  /** Digits, a point and digits split at the point. */
  lemma SplitPoint(whole: string, fraction: string)
    requires Digits(whole) && Digits(fraction) && |whole| > 0
    ensures Split(whole + ['.'] + fraction) == Numeral(false, whole, fraction, true)
  {
    assert IsAsciiDigit(whole[0]);
    assert '.' !in whole;
    var s := whole + ['.'] + fraction;
    assert s[..|whole|] == whole && s[|whole|] == '.';
    assert IndexOf(s, '.') == |whole|;
    assert s[|whole| + 1..] == fraction;
  }

  /** At most 28 digits spell a number below decimal.MaxValue. */
  lemma WholeValueFits(whole: string)
    requires Digits(whole) && |whole| <= 28
    ensures WholeValue(whole) as real + 1.0 <= DecimalMaxValue
  {
    WholeValueBound(whole);
    Pow10Monotone(|whole|, 28);
    Pow10Of28();
  }

  /** decimal.MaxValue lies just below 10^28. */
  lemma Pow10Of28()
    ensures Pow10(28) == 10000000000000000000000000000
  {
    var p7 := Pow10(7);
    assert p7 == 10000000;
    Pow10Add(7, 7);
    var p14 := Pow10(14);
    assert p14 == 100000000000000;
    Pow10Add(14, 14);
  }

  /**
   Digits with at most 28 before the point parse: unsigned, signed, or with a
   point and fraction digits after it.
   */
  lemma ParseDecimalAcceptsDigits(whole: string, fraction: string)
    requires Digits(whole) && Digits(fraction) && 0 < |whole| <= 28
    ensures ParseDecimal(whole).Some? && ParseDecimal(['-'] + whole).Some?
    ensures ParseDecimal(whole + ['.'] + fraction).Some?
  {
    WholeValueFits(whole);
    SplitDigits(whole);
    SplitPoint(whole, fraction);
    assert '.' !in fraction;
  }

  /** A text without an ASCII digit. */
  predicate NoDigit(s: string) {
    forall i | 0 <= i < |s| :: !IsAsciiDigit(s[i])
  }

  /** A text without a digit never parses. */
  lemma ParseDecimalNeedsDigit(s: string)
    requires NoDigit(s)
    ensures ParseDecimal(s).None?
  {
    var n := Split(s);
    var negative := |s| > 0 && s[0] == '-';
    var body := if negative then s[1..] else s;
    assert NoDigit(body);
    var i := IndexOf(body, '.');
    if |n.whole| > 0 {
      assert n.whole[0] == body[0];
      assert !IsAsciiDigit(n.whole[0]);
    }
    if |n.fraction| > 0 {
      assert n.fraction[0] == body[i + 1];
      assert !IsAsciiDigit(n.fraction[0]);
    }
  }

  /** Unsigned digits within Int32 parse as an int. */
  lemma ParseIntUnsigned(digits: string)
    requires Digits(digits) && |digits| > 0 && WholeValue(digits) < 0x8000_0000
    ensures ParseInt(digits) == Some(WholeValue(digits) as int)
  {
    SplitDigits(digits);
  }

  /** A sign and digits within Int32 parse as a negative int. */
  lemma ParseIntSigned(digits: string)
    requires Digits(digits) && |digits| > 0 && WholeValue(digits) <= 0x8000_0000
    ensures ParseInt(['-'] + digits) == Some(-(WholeValue(digits) as int))
  {
    SplitDigits(digits);
  }

  /** int.TryParse reads back what int.ToString wrote. */
  lemma FormatIntRoundTrip(n: Int32)
    ensures ParseInt(FormatInt(n)) == Some(n)
  {
    var m: int := n;
    if m < 0 {
      WholeRoundTrip(-m);
      ParseIntSigned(WholeDigits(-m));
    } else {
      WholeRoundTrip(m);
      ParseIntUnsigned(WholeDigits(m));
    }
  }

  const Lib := Library(IsAsciiDigit, TrimSpaces, ParseDecimal, ParseInt, FormatDecimal, FormatInt)
}

=== FILE: keystroke.dfy ===
/**
 PreviewTextInputCallBack: the per-keystroke transformer. Every path marks
 the event handled, so the widget never inserts the typed text itself; the
 handler either leaves the state alone, writes a new one, or throws.

 The branches follow the source in order: the rejection gates, the lone
 negative sign, seeding "0" + separator, replacing a selection, and the
 insertion at the caret (in the middle of the text or at its end).
 */
module Keystroke {
  import opened Runtime
  import opened Strings
  import opened Mask

  /**
   CalculateDecPartLength(c, d, s): c + d rounded down to a multiple of |s|
   (C#'s `%` agrees with Dafny's here, as c + d is not negative).
   */
  function CalculateDecPartLength(caretIndex: int, decimalPlaces: Byte, inputText: string): (r: int)
    requires 0 <= caretIndex && |inputText| > 0
    ensures r == (caretIndex + decimalPlaces) / |inputText| * |inputText|
    ensures 0 <= r <= caretIndex + decimalPlaces < r + |inputText|
  {
    caretIndex + decimalPlaces - (caretIndex + decimalPlaces) % |inputText|
  }

  /** A multiple of n strictly between -n and 2n is 0 or n. */
  lemma SmallMultiple(q: int, n: int)
    requires 0 < n && -n < q * n < 2 * n
    ensures q == 0 || q == 1
  {
  }

  /**
   Where the handler calls it, c + d stays below twice the length, so the
   "truncation" keeps either nothing or the whole text.
   */
  lemma DecPartLengthAtCallSite(caretIndex: int, decimalPlaces: Byte, inputText: string)
    requires 0 < caretIndex < |inputText| && decimalPlaces <= |inputText|
    ensures var r := CalculateDecPartLength(caretIndex, decimalPlaces, inputText);
            r == (if caretIndex + decimalPlaces < |inputText| then 0 else |inputText|)
  {
    var n := |inputText|;
    var q := (caretIndex + decimalPlaces) / n;
    SmallMultiple(q, n);
  }

  /** The final assignment (:320-323): text and caret, and the selection collapsed onto the caret. */
  function Commit(st: EditState, text: string, caret: int): EditState {
    st.(text := text, caret := caret, selStart := caret, selLen := 0)
  }

  /**
   The lone negative sign (:176-202). An empty or wholly selected field becomes
   the sign. Otherwise a selection starting at 0 has EVERY occurrence of its
   text replaced by the sign, and then, independently, a caret at 0 puts the
   sign in front of the ORIGINAL text, overwriting that replacement.
   */
  function NegativeSignInput(st: EditState, eventText: string, sym: Symbols): (r: EditState)
    requires st.WellFormed()
    requires eventText == [sym.negativeSign]
    ensures r.text != st.text ==> StartsWith(r.text, [sym.negativeSign])
    ensures r.selStart == st.selStart && r.selLen == st.selLen
    // an empty or wholly selected field becomes the sign
    ensures |st.text| == 0 || st.selLen == |st.text| ==> r.text == [sym.negativeSign] && r.caret == st.caret + 1
    // otherwise a caret at 0 puts the sign in front of the original text
    ensures (0 < |st.text| && st.selLen != |st.text| && st.caret == 0 && !StartsWith(st.text, [sym.negativeSign])) ==>
              r.text == [sym.negativeSign] + st.text
              && r.caret == (if st.selStart == 0 && st.selLen > 0 then 2 else 1)
    // otherwise a selection at 0 has every occurrence of its text replaced by the sign
    ensures (0 < st.selLen < |st.text| && st.selStart == 0 && !(st.caret == 0 && !StartsWith(st.text, [sym.negativeSign]))) ==>
              r.text == ReplaceAll(st.text, st.Selected(), [sym.negativeSign]) && r.caret == 1
    // and anything else changes nothing
    ensures (&& 0 < |st.text| && st.selLen != |st.text| && !(st.selStart == 0 && st.selLen > 0)
             && !(st.caret == 0 && !StartsWith(st.text, [sym.negativeSign]))) ==> r == st
  {
    var text := st.text;
    if |text| == 0 || st.selLen == |text| then
      st.(text := eventText, caret := st.caret + 1)
    else
      var replaced :=
        if st.selStart == 0 && st.selLen > 0
        then st.(text := ReplaceAll(text, st.Selected(), eventText), caret := st.selStart + |eventText|)
        else st;
      if st.caret == 0 && !StartsWith(text, [sym.negativeSign])
      then replaced.(text := eventText + text, caret := replaced.caret + 1)
      else replaced
  }

  /**
   "0" or the separator typed into an effectively empty field (:205-222): the
   text becomes "0" + separator, keeping a lone sign when nothing is selected.
   */
  function SeedFraction(st: EditState, sym: Symbols): (r: EditState)
    ensures r.caret == |r.text| && 2 <= |r.text| <= 3
    ensures r.text[|r.text| - 2..] == ['0', sym.separator]
    ensures |r.text| == 3 <==> st.text == [sym.negativeSign] && st.selLen == 0
    ensures |r.text| == 3 ==> r.text[0] == sym.negativeSign
    ensures r.selStart == st.selStart && r.selLen == st.selLen
  {
    if st.text == [sym.negativeSign] && st.selLen == 0 then
      st.(text := [sym.negativeSign, '0', sym.separator], caret := 3)
    else
      st.(text := ['0', sym.separator], caret := 2)
  }

  /**
   Insertion in the middle of the text (:281-299): splice the typed text in at
   the caret; if that parses, commit it, except that a typed separator that
   leaves more than `decimalPlaces` characters behind the old separator index
   cuts the text to CalculateDecPartLength characters. An unparsable splice
   commits the text as it was.
   */
  function InsertAt(st: EditState, inputText: string, caretIndex: int, eventText: string, sym: Symbols,
                    lib: Library, decimalPlaces: Byte, separatorIndex: int): (r: Reaction)
    requires 0 <= caretIndex != |inputText|
    requires eventText == [sym.separator] ==> separatorIndex == -1
    requires -1 <= separatorIndex
    ensures !r.Unhandled?
    ensures r.Thrown? ==> caretIndex > |inputText| && r.fault == ArgumentOutOfRange
    ensures r.Handled? ==>
              || r.state.text == inputText
              || r.state.text == []
              || (caretIndex <= |inputText|
                  && r.state.text == inputText[..caretIndex] + eventText + inputText[caretIndex..]
                  && lib.parseDecimal(r.state.text).Some?)
    // anything but the separator: a splice that parses is committed, one that does not leaves the text
    ensures caretIndex <= |inputText| && eventText != [sym.separator] ==>
              var splice := inputText[..caretIndex] + eventText + inputText[caretIndex..];
              && (lib.parseDecimal(splice).Some? ==> r == Handled(Commit(st, splice, caretIndex + 1)))
              && (lib.parseDecimal(splice).None? ==> r == Handled(Commit(st, inputText, caretIndex)))
  {
    if caretIndex > |inputText| then Thrown(ArgumentOutOfRange)
    else
      var newValue := inputText[..caretIndex] + eventText + inputText[caretIndex..];
      if lib.parseDecimal(newValue).Some? then
        var c := caretIndex + 1;
        if eventText == [sym.separator] && |newValue| - separatorIndex > decimalPlaces then
          var len := CalculateDecPartLength(c, decimalPlaces, newValue);
          DecPartLengthAtCallSite(c, decimalPlaces, newValue);
          if len > |newValue| then Thrown(ArgumentOutOfRange)
          else
            assert newValue[..|newValue|] == newValue;
            Handled(st.(text := newValue[..len], caret := c))
        else Handled(Commit(st, newValue, c))
      else Handled(Commit(st, inputText, caretIndex))
  }

  /**
   Single-character handling (:259-318). In the middle of the text the integer
   places are checked first: without a separator, the whole length (no sign
   allowance) against integerPlaces; with one before the caret, the
   `separatorIndex - 1` characters before it, less a sign. At the end of the
   text the length less a sign is checked, and the typed text is appended if
   the result parses.
   */
  function CaretInput(st: EditState, inputText: string, caretIndex: int, eventText: string, sym: Symbols,
                      lib: Library, decimalPlaces: Byte, integerPlaces: Byte,
                      separatorIndex: int, isNegative: bool): (r: Reaction)
    requires 0 <= caretIndex
    requires eventText == [sym.separator] ==> separatorIndex == -1
    requires -1 <= separatorIndex
    ensures !r.Unhandled?
    ensures r.Thrown? ==> (caretIndex > |inputText| || separatorIndex - 1 > |inputText|) && r.fault == ArgumentOutOfRange
    ensures r.Handled? ==>
              || r.state.text == st.text
              || r.state.text == inputText
              || r.state.text == []
              || (caretIndex <= |inputText|
                  && r.state.text == inputText[..caretIndex] + eventText + inputText[caretIndex..]
                  && lib.parseDecimal(r.state.text).Some?)
  {
    var sep := sym.separator;
    var sign := if isNegative then 1 else 0;
    if caretIndex != |inputText| then
      if sep !in inputText && eventText != [sep] then
        if |inputText| >= integerPlaces then Handled(st)
        else InsertAt(st, inputText, caretIndex, eventText, sym, lib, decimalPlaces, separatorIndex)
      else if separatorIndex > 0 && !IsCaretInDecimalPart(separatorIndex, caretIndex) then
        if separatorIndex - 1 > |inputText| then Thrown(ArgumentOutOfRange)
        else if |inputText[..separatorIndex - 1]| - sign >= integerPlaces then Handled(st)
        else InsertAt(st, inputText, caretIndex, eventText, sym, lib, decimalPlaces, separatorIndex)
      else InsertAt(st, inputText, caretIndex, eventText, sym, lib, decimalPlaces, separatorIndex)
    else if sep !in inputText && eventText != [sep] && |inputText| - sign >= integerPlaces then
      Handled(st)
    else if lib.parseDecimal(inputText + eventText).Some? then
      assert inputText + eventText == inputText[..caretIndex] + eventText + inputText[caretIndex..];
      Handled(Commit(st, inputText + eventText, caretIndex + 1))
    else Handled(Commit(st, inputText, caretIndex))
  }

  /**
   Replacing a selection (:225-256): every occurrence of the selected text is
   replaced by the typed text; a result that parses is committed. One that does
   not parse falls through to single-character handling with the replaced text
   and the moved caret, so it can still be committed.
   */
  function SelectionInput(st: EditState, eventText: string, sym: Symbols, lib: Library,
                          decimalPlaces: Byte, integerPlaces: Byte, separatorIndex: int, isNegative: bool): (r: Reaction)
    requires st.WellFormed() && st.selLen > 0
    requires !(|eventText| > 1 && |eventText| != st.selLen)
    requires eventText == [sym.separator] ==> separatorIndex == -1
    requires -1 <= separatorIndex < |st.text|
    ensures !r.Unhandled?
    ensures r.Thrown? ==> |eventText| < st.selLen && r.fault == ArgumentOutOfRange
  {
    var text := st.text;
    if eventText == [sym.negativeSign] && st.selLen == |text| then
      Handled(st.(text := [sym.negativeSign], caret := 1))
    else
      var replaced := ReplaceAll(text, st.Selected(), eventText);
      var inputText := if |eventText| > 1 && |eventText| != st.selLen then eventText else replaced;
      var caretIndex := st.selStart + |eventText|;
      if lib.parseDecimal(inputText).Some? then Handled(Commit(st, inputText, caretIndex))
      else CaretInput(st, inputText, caretIndex, eventText, sym, lib, decimalPlaces, integerPlaces,
                      separatorIndex, isNegative)
  }

  /**
   PreviewTextInputCallBack. The event is always handled: the four rejection
   gates keep the state (a mismatched multi-character insert also moves the
   caret to the end), and the other branches write the new state. The handler
   can only throw when a selection is replaced by fewer characters than it
   holds and the result does not parse.
   */
  function PreviewTextInput(st: EditState, eventText: string, sym: Symbols, lib: Library, mask: MaskType,
                            decimalPlaces: Byte, integerPlaces: Byte): (r: Reaction)
    requires st.WellFormed()
    ensures !r.Unhandled?
    ensures r.Thrown? ==> 0 < st.selLen && |eventText| < st.selLen && r.fault == ArgumentOutOfRange
  {
    var text := st.text;
    var sep := sym.separator;
    var neg := sym.negativeSign;
    var isTextInserted := |eventText| > 1;
    if !SymbolAccepted(mask, eventText, sym, lib) || (isTextInserted && |eventText| != st.selLen) then
      Handled(if isTextInserted then st.(caret := |text|, selLen := 0) else st)
    else if sep in eventText && sep in text then Handled(st)
    else if neg in eventText && StartsWith(text, [neg]) then Handled(st)
    else if sep in text && |text| - IndexOf(text, sep) > decimalPlaces && IndexOf(text, sep) < st.caret then
      Handled(st)
    else AdmittedInput(st, eventText, sym, lib, decimalPlaces, integerPlaces)
  }

  /** The branches after the rejection gates (:175-324). */
  function AdmittedInput(st: EditState, eventText: string, sym: Symbols, lib: Library,
                         decimalPlaces: Byte, integerPlaces: Byte): (r: Reaction)
    requires st.WellFormed()
    requires !(|eventText| > 1 && |eventText| != st.selLen)
    requires sym.separator in eventText ==> sym.separator !in st.text
    ensures !r.Unhandled?
    ensures r.Thrown? ==> 0 < st.selLen && |eventText| < st.selLen && r.fault == ArgumentOutOfRange
  {
    var text := st.text;
    var sep := sym.separator;
    var neg := sym.negativeSign;
    var isNegative := StartsWith(text, [neg]) || StartsWith(eventText, [neg]);
    var separatorIndex := IndexOf(text, sep);
    if eventText == [neg] then Handled(NegativeSignInput(st, eventText, sym))
    else if (eventText == ['0'] || eventText == [sep]) && (|text| == 0 || |text| == st.selLen || text == [neg]) then
      Handled(SeedFraction(st, sym))
    else if st.selLen > 0 then
      SelectionInput(st, eventText, sym, lib, decimalPlaces, integerPlaces, separatorIndex, isNegative)
    else
      CaretInput(st, text, st.caret, eventText, sym, lib, decimalPlaces, integerPlaces, separatorIndex, isNegative)
  }
}

=== FILE: keystroke_facts.dfy ===
/**
 Properties of PreviewTextInputCallBack stated from the outside: which
 keystrokes leave the text alone, what seeding produces, what the lone sign
 can do, and what an insertion without a selection can turn the text into.
 */
module KeystrokeFacts {
  import opened Runtime
  import opened Strings
  import opened Mask
  import opened Keystroke

  /**
   The rejection gates, by what they test: a symbol the mode refuses; several
   characters that do not exactly cover the selection; a second separator; a
   sign when the text already starts with one; or a caret after the separator
   while `decimalPlaces` characters already follow it.
   */
  predicate Refused(st: EditState, eventText: string, sym: Symbols, lib: Library, mask: MaskType,
                    decimalPlaces: Byte)
    requires st.WellFormed()
  {
    || !SymbolAccepted(mask, eventText, sym, lib)
    || (|eventText| > 1 && |eventText| != st.selLen)
    || (sym.separator in eventText && sym.separator in st.text)
    || (sym.negativeSign in eventText && StartsWith(st.text, [sym.negativeSign]))
    || (sym.separator in st.text[..st.caret] && CharsAfterFirst(st.text, sym.separator) >= decimalPlaces)
  }

  /** The fraction gate of the source is the last disjunct of `Refused`. */
  lemma FractionGateMeaning(st: EditState, sep: char, decimalPlaces: Byte)
    requires st.WellFormed()
    ensures (sep in st.text && |st.text| - IndexOf(st.text, sep) > decimalPlaces && IndexOf(st.text, sep) < st.caret)
            <==> (sep in st.text[..st.caret] && CharsAfterFirst(st.text, sep) >= decimalPlaces)
  {
    CaretInDecimalPartMeaning(st.text, sep, st.caret);
    if sep in st.text {
      CharsAfterFirstIndex(st.text, sep);
    }
  }

  /**
   A refused keystroke is handled and leaves the text and selection start as
   they were. A multi-character insert moves the caret to the end and clears
   the selection length; any other refused keystroke changes nothing at all.
   */
  lemma RefusedKeepsText(st: EditState, eventText: string, sym: Symbols, lib: Library, mask: MaskType,
                         decimalPlaces: Byte, integerPlaces: Byte)
    requires st.WellFormed()
    requires Refused(st, eventText, sym, lib, mask, decimalPlaces)
    ensures var r := PreviewTextInput(st, eventText, sym, lib, mask, decimalPlaces, integerPlaces);
      && r.Handled?
      && r.state.text == st.text && r.state.selStart == st.selStart
      && (if |eventText| > 1 && (!SymbolAccepted(mask, eventText, sym, lib) || |eventText| != st.selLen)
          then r.state.caret == |st.text| && r.state.selLen == 0
          else r.state == st)
  {
    FractionGateMeaning(st, sym.separator, decimalPlaces);
  }

  /** A keystroke that passes the gates goes on to the sign, seeding, selection and caret branches. */
  lemma AdmittedWhenNotRefused(st: EditState, eventText: string, sym: Symbols, lib: Library, mask: MaskType,
                               decimalPlaces: Byte, integerPlaces: Byte)
    requires st.WellFormed()
    requires !Refused(st, eventText, sym, lib, mask, decimalPlaces)
    ensures PreviewTextInput(st, eventText, sym, lib, mask, decimalPlaces, integerPlaces)
            == AdmittedInput(st, eventText, sym, lib, decimalPlaces, integerPlaces)
  {
    FractionGateMeaning(st, sym.separator, decimalPlaces);
  }

  /**
   "0" or the separator typed into a field that is empty, wholly selected, or a
   lone sign gives "0" + separator with the caret at the end, keeping the sign
   when the field was a lone sign with nothing selected. The mode is not
   consulted, so this holds in Integer mode too.
   */
  lemma SeedOnEmptyField(st: EditState, eventText: string, sym: Symbols, lib: Library, mask: MaskType,
                         decimalPlaces: Byte, integerPlaces: Byte)
    requires st.WellFormed()
    requires sym.negativeSign != '0' && sym.negativeSign != sym.separator
    requires eventText == ['0'] || eventText == [sym.separator]
    requires |st.text| == 0 || |st.text| == st.selLen || st.text == [sym.negativeSign]
    requires !Refused(st, eventText, sym, lib, mask, decimalPlaces)
    ensures var r := PreviewTextInput(st, eventText, sym, lib, mask, decimalPlaces, integerPlaces);
      && r.Handled?
      && r.state.text == (if st.text == [sym.negativeSign] && st.selLen == 0 then [sym.negativeSign, '0', sym.separator]
                          else ['0', sym.separator])
      && r.state.caret == |r.state.text|
  {
    AdmittedWhenNotRefused(st, eventText, sym, lib, mask, decimalPlaces, integerPlaces);
    SeedBranchTaken(st, eventText, sym, lib, decimalPlaces, integerPlaces);
  }

  /** Past the gates, "0" or the separator on a nearly empty field takes the seeding branch. */
  lemma SeedBranchTaken(st: EditState, eventText: string, sym: Symbols, lib: Library,
                        decimalPlaces: Byte, integerPlaces: Byte)
    requires st.WellFormed()
    requires !(|eventText| > 1 && |eventText| != st.selLen)
    requires sym.separator in eventText ==> sym.separator !in st.text
    requires sym.negativeSign != '0' && sym.negativeSign != sym.separator
    requires eventText == ['0'] || eventText == [sym.separator]
    requires |st.text| == 0 || |st.text| == st.selLen || st.text == [sym.negativeSign]
    ensures AdmittedInput(st, eventText, sym, lib, decimalPlaces, integerPlaces)
            == Handled(if st.text == [sym.negativeSign] && st.selLen == 0
                       then st.(text := [sym.negativeSign, '0', sym.separator], caret := 3)
                       else st.(text := ['0', sym.separator], caret := 2))
  {
    assert eventText != [sym.negativeSign];
  }

  /**
   In Integer mode, typing "0" into an empty field puts a decimal separator
   into the field.
   */
  lemma IntegerModeGetsSeparator(sym: Symbols, lib: Library, decimalPlaces: Byte, integerPlaces: Byte)
    requires lib.isDigit('0')
    requires sym.negativeSign != '0' && sym.negativeSign != sym.separator
    ensures var r := PreviewTextInput(EditState([], 0, 0, 0), ['0'], sym, lib, Integer, decimalPlaces, integerPlaces);
      r.Handled? && sym.separator in r.state.text
  {
    var st := EditState([], 0, 0, 0);
    SeedOnEmptyField(st, ['0'], sym, lib, Integer, decimalPlaces, integerPlaces);
    assert (['0', sym.separator])[1] == sym.separator;
  }

  /**
   A lone sign that passes the gates either leaves the text as it was or makes
   it start with the sign. With something in the field, a selection that does
   not start at 0 (or no selection), and the caret away from 0, nothing changes
   even though the event is handled.
   */
  lemma NegativeSignKeystroke(st: EditState, sym: Symbols, lib: Library, mask: MaskType,
                              decimalPlaces: Byte, integerPlaces: Byte)
    requires st.WellFormed()
    requires !Refused(st, [sym.negativeSign], sym, lib, mask, decimalPlaces)
    ensures var r := PreviewTextInput(st, [sym.negativeSign], sym, lib, mask, decimalPlaces, integerPlaces);
      && r.Handled?
      && (r.state.text == st.text || StartsWith(r.state.text, [sym.negativeSign]))
      && (0 < |st.text| && st.selLen != |st.text| && !(st.selStart == 0 && st.selLen > 0) && st.caret != 0
          ==> r.state == st)
  {
    AdmittedWhenNotRefused(st, [sym.negativeSign], sym, lib, mask, decimalPlaces, integerPlaces);
  }

  /**
   Without a selection, a keystroke other than the sign never throws, and it
   either leaves the text as it was, seeds "0" + separator (after a sign that
   was there), empties the field (a separator typed mid-text), or inserts the
   typed text at the caret, and in that last case only when the result parses.
   */
  lemma KeystrokeWithoutSelection(st: EditState, eventText: string, sym: Symbols, lib: Library, mask: MaskType,
                                  decimalPlaces: Byte, integerPlaces: Byte)
    requires st.WellFormed() && st.selLen == 0
    requires eventText != [sym.negativeSign]
    ensures var r := PreviewTextInput(st, eventText, sym, lib, mask, decimalPlaces, integerPlaces);
      && r.Handled?
      && (|| r.state.text == st.text
          || r.state.text == []
          || r.state.text == ['0', sym.separator]
          || r.state.text == [sym.negativeSign, '0', sym.separator]
          || (r.state.text == st.text[..st.caret] + eventText + st.text[st.caret..]
              && lib.parseDecimal(r.state.text).Some?))
      // at the end of a text whose integer part is full, nothing but seeding changes the text
      && (st.caret == |st.text| && !AppendHasRoom(st.text, eventText, sym, integerPlaces)
          && !(eventText == ['0'] && (|st.text| == 0 || st.text == [sym.negativeSign]))
          ==> r.state.text == st.text)
  {
    if !Refused(st, eventText, sym, lib, mask, decimalPlaces) {
      AdmittedWhenNotRefused(st, eventText, sym, lib, mask, decimalPlaces, integerPlaces);
      if st.caret == |st.text| && !AppendHasRoom(st.text, eventText, sym, integerPlaces)
         && !(eventText == ['0'] && (|st.text| == 0 || st.text == [sym.negativeSign])) {
        assert !StartsWith(eventText, [sym.negativeSign]);
        assert AdmittedInput(st, eventText, sym, lib, decimalPlaces, integerPlaces)
               == CaretInput(st, st.text, st.caret, eventText, sym, lib, decimalPlaces, integerPlaces,
                             IndexOf(st.text, sym.separator), StartsWith(st.text, [sym.negativeSign]));
      }
    } else {
      RefusedKeepsText(st, eventText, sym, lib, mask, decimalPlaces, integerPlaces);
    }
  }

  /**
   Typing over a selection that is not the whole text replaces EVERY occurrence
   of the selected text, not just the selected one; a result that parses is
   committed with the caret after the typed text at the selection start.
   */
  lemma SelectionReplaced(st: EditState, eventText: string, sym: Symbols, lib: Library, mask: MaskType,
                          decimalPlaces: Byte, integerPlaces: Byte)
    requires st.WellFormed() && 0 < st.selLen < |st.text|
    requires eventText != [sym.negativeSign]
    requires !Refused(st, eventText, sym, lib, mask, decimalPlaces)
    requires lib.parseDecimal(ReplaceAll(st.text, st.Selected(), eventText)).Some?
    ensures
      var c := st.selStart + |eventText|;
      PreviewTextInput(st, eventText, sym, lib, mask, decimalPlaces, integerPlaces)
      == Handled(EditState(ReplaceAll(st.text, st.Selected(), eventText), c, c, 0))
  {
    AdmittedWhenNotRefused(st, eventText, sym, lib, mask, decimalPlaces, integerPlaces);
    AdmittedSelection(st, eventText, sym, lib, decimalPlaces, integerPlaces);
  }

  /**
   Past the gates, anything but the sign typed over a selection that is not the
   whole text reaches the selection branch, and a replacement that parses is
   committed there.
   */
  lemma AdmittedSelection(st: EditState, eventText: string, sym: Symbols, lib: Library,
                          decimalPlaces: Byte, integerPlaces: Byte)
    requires st.WellFormed() && 0 < st.selLen < |st.text|
    requires eventText != [sym.negativeSign]
    requires !(|eventText| > 1 && |eventText| != st.selLen)
    requires sym.separator in eventText ==> sym.separator !in st.text
    requires lib.parseDecimal(ReplaceAll(st.text, st.Selected(), eventText)).Some?
    ensures
      var c := st.selStart + |eventText|;
      AdmittedInput(st, eventText, sym, lib, decimalPlaces, integerPlaces)
      == Handled(Commit(st, ReplaceAll(st.text, st.Selected(), eventText), c))
  {
    assert st.text != [sym.negativeSign];
    var selected := SelectionInput(st, eventText, sym, lib, decimalPlaces, integerPlaces,
                                   IndexOf(st.text, sym.separator),
                                   StartsWith(st.text, [sym.negativeSign]) || StartsWith(eventText, [sym.negativeSign]));
    assert AdmittedInput(st, eventText, sym, lib, decimalPlaces, integerPlaces) == selected;
  }

  /**
   When the selected text occurs nowhere else in the field, the replacement is
   an ordinary splice at the selection.
   */
  lemma SelectionReplacedOnce(st: EditState, eventText: string, sym: Symbols, lib: Library, mask: MaskType,
                              decimalPlaces: Byte, integerPlaces: Byte)
    requires st.WellFormed() && 0 < st.selLen < |st.text|
    requires eventText != [sym.negativeSign]
    requires !Refused(st, eventText, sym, lib, mask, decimalPlaces)
    requires forall j :: OccursAt(st.text, st.Selected(), j) ==> j == st.selStart
    requires
      var spliced := st.text[..st.selStart] + eventText + st.text[st.selStart + st.selLen..];
      lib.parseDecimal(spliced).Some?
    ensures
      var spliced := st.text[..st.selStart] + eventText + st.text[st.selStart + st.selLen..];
      var c := st.selStart + |eventText|;
      PreviewTextInput(st, eventText, sym, lib, mask, decimalPlaces, integerPlaces)
      == Handled(EditState(spliced, c, c, 0))
  {
    assert OccursAt(st.text, st.Selected(), st.selStart);
    ReplaceAllUnique(st.text, st.Selected(), eventText, st.selStart);
    SelectionReplaced(st, eventText, sym, lib, mask, decimalPlaces, integerPlaces);
  }

  /**
   The integer-place check for a character typed inside the text: without a
   separator the whole length counts, sign included; before the separator the
   `separatorIndex - 1` characters in front of it count, less a sign; after
   the separator nothing is checked.
   */
  predicate HasRoom(text: string, caret: int, sym: Symbols, integerPlaces: Byte) {
    var i := IndexOf(text, sym.separator);
    var sign := if StartsWith(text, [sym.negativeSign]) then 1 else 0;
    if sym.separator !in text then |text| < integerPlaces
    else if 0 < i && caret <= i then i - 1 - sign < integerPlaces
    else true
  }

  /**
   A character other than the sign and the separator, typed inside the text
   with nothing selected, past the gates: without room it changes nothing;
   with room a splice that parses is committed with the caret after it, and
   one that does not parse leaves the text and collapses the selection.
   */
  lemma MidTextInsert(st: EditState, d: char, sym: Symbols, lib: Library, mask: MaskType,
                      decimalPlaces: Byte, integerPlaces: Byte)
    requires st.WellFormed() && st.selLen == 0 && st.caret < |st.text|
    requires d != sym.negativeSign && d != sym.separator
    requires !(d == '0' && st.text == [sym.negativeSign])
    requires !Refused(st, [d], sym, lib, mask, decimalPlaces)
    ensures var splice := st.text[..st.caret] + [d] + st.text[st.caret..];
            var r := PreviewTextInput(st, [d], sym, lib, mask, decimalPlaces, integerPlaces);
      && (!HasRoom(st.text, st.caret, sym, integerPlaces) ==> r == Handled(st))
      && (HasRoom(st.text, st.caret, sym, integerPlaces) && lib.parseDecimal(splice).Some? ==>
            r == Handled(Commit(st, splice, st.caret + 1)))
      && (HasRoom(st.text, st.caret, sym, integerPlaces) && lib.parseDecimal(splice).None? ==>
            r == Handled(Commit(st, st.text, st.caret)))
  {
    AdmittedWhenNotRefused(st, [d], sym, lib, mask, decimalPlaces, integerPlaces);
    var isNegative := StartsWith(st.text, [sym.negativeSign]);
    assert !StartsWith([d], [sym.negativeSign]);
    assert AdmittedInput(st, [d], sym, lib, decimalPlaces, integerPlaces)
           == CaretInput(st, st.text, st.caret, [d], sym, lib, decimalPlaces, integerPlaces,
                         IndexOf(st.text, sym.separator), isNegative);
  }

  /**
   Typing over a selection of the whole text, with anything but the sign and
   the seeding "0" or separator, puts the typed text in the field when it
   parses, with the caret after it.
   */
  lemma WholeSelectionReplaced(st: EditState, eventText: string, sym: Symbols, lib: Library, mask: MaskType,
                               decimalPlaces: Byte, integerPlaces: Byte)
    requires st.WellFormed() && 0 < st.selLen == |st.text|
    requires eventText != [sym.negativeSign] && eventText != ['0'] && eventText != [sym.separator]
    requires !Refused(st, eventText, sym, lib, mask, decimalPlaces)
    requires lib.parseDecimal(eventText).Some?
    ensures PreviewTextInput(st, eventText, sym, lib, mask, decimalPlaces, integerPlaces)
            == Handled(EditState(eventText, |eventText|, |eventText|, 0))
  {
    AdmittedWhenNotRefused(st, eventText, sym, lib, mask, decimalPlaces, integerPlaces);
    assert st.Selected() == st.text;
    ReplaceAllWhole(st.text, eventText);
    assert AdmittedInput(st, eventText, sym, lib, decimalPlaces, integerPlaces)
           == SelectionInput(st, eventText, sym, lib, decimalPlaces, integerPlaces,
                             IndexOf(st.text, sym.separator),
                             StartsWith(st.text, [sym.negativeSign]) || StartsWith(eventText, [sym.negativeSign]));
  }

  /**
   The integer-place check at the end of the text: it only applies to a text
   without a separator and a character other than the separator, and there the
   length less a leading sign must stay below `integerPlaces`.
   */
  predicate AppendHasRoom(text: string, ev: string, sym: Symbols, integerPlaces: Byte) {
    || sym.separator in text || ev == [sym.separator]
    || |text| - (if StartsWith(text, [sym.negativeSign]) then 1 else 0) < integerPlaces
  }

  /**
   One character typed at the end of the text with nothing selected, past the
   gates and the seeding case: without room it changes nothing; with room it
   is appended, with the caret after it, when the longer text parses, and
   otherwise the text stays as it was.
   */
  lemma AppendAtEnd(text: string, ev: string, sym: Symbols, lib: Library, mask: MaskType,
                    decimalPlaces: Byte, integerPlaces: Byte)
    requires |ev| == 1 && ev != [sym.negativeSign]
    requires !Refused(EditState(text, |text|, |text|, 0), ev, sym, lib, mask, decimalPlaces)
    requires !((ev == ['0'] || ev == [sym.separator]) && (|text| == 0 || text == [sym.negativeSign]))
    ensures var st := EditState(text, |text|, |text|, 0);
            var r := PreviewTextInput(st, ev, sym, lib, mask, decimalPlaces, integerPlaces);
      && (!AppendHasRoom(text, ev, sym, integerPlaces) ==> r == Handled(st))
      && (AppendHasRoom(text, ev, sym, integerPlaces) && lib.parseDecimal(text + ev).Some? ==>
            r == Handled(EditState(text + ev, |text| + 1, |text| + 1, 0)))
      && (AppendHasRoom(text, ev, sym, integerPlaces) && lib.parseDecimal(text + ev).None? ==>
            r == Handled(st))
  {
    var st := EditState(text, |text|, |text|, 0);
    AdmittedWhenNotRefused(st, ev, sym, lib, mask, decimalPlaces, integerPlaces);
    assert !StartsWith(ev, [sym.negativeSign]);
    var isNegative := StartsWith(text, [sym.negativeSign]);
    var separatorIndex := IndexOf(text, sym.separator);
    assert AdmittedInput(st, ev, sym, lib, decimalPlaces, integerPlaces)
           == CaretInput(st, text, |text|, ev, sym, lib, decimalPlaces, integerPlaces, separatorIndex, isNegative);
  }
}

=== FILE: limits.dfy ===
/**
 ValidateLimits: the clamp of a parsed value into the configured range,
 where decimal.MinValue and decimal.MaxValue mean "no bound on this side".
 */
module Limits {
  import opened Runtime

  /** The lower bound is a real bound (not the decimal.MinValue sentinel). */
  predicate HasLower(min: DecimalValue) { min != DecimalMinValue }

  /** The upper bound is a real bound (not the decimal.MaxValue sentinel). */
  predicate HasUpper(max: DecimalValue) { max != DecimalMaxValue }

  /** The value lies within every bound that is set. */
  predicate InRange(min: DecimalValue, max: DecimalValue, value: DecimalValue) {
    (!HasLower(min) || min <= value) && (!HasUpper(max) || value <= max)
  }

  /**
   ValidateLimits(min, max, value): a value under a set lower bound becomes the
   lower bound; otherwise a value over a set upper bound becomes the upper bound.
   */
  function ValidateLimits(min: DecimalValue, max: DecimalValue, value: DecimalValue): (r: DecimalValue)
    ensures r != value ==> (r == min && HasLower(min)) || (r == max && HasUpper(max))
    ensures InRange(min, max, value) ==> r == value
    ensures min <= max ==> InRange(min, max, r)
    ensures HasLower(min) && value < min ==> r == min
    ensures !(HasLower(min) && value < min) && HasUpper(max) && value > max ==> r == max
  {
    if HasLower(min) && value < min then min
    else if HasUpper(max) && value > max then max
    else value
  }

  /** Clamping twice is clamping once, whenever the bounds are in order. */
  lemma ValidateLimitsIdempotent(min: DecimalValue, max: DecimalValue, value: DecimalValue)
    requires min <= max
    ensures ValidateLimits(min, max, ValidateLimits(min, max, value)) == ValidateLimits(min, max, value)
  {
  }

  /**
   With the bounds given in the wrong order (both set, lower above upper), every
   value is replaced by one of the two bounds, and a second clamp always moves
   it to the other one.
   */
  lemma ValidateLimitsReversed(lo: DecimalValue, hi: DecimalValue, value: DecimalValue)
    requires HasLower(lo) && HasUpper(hi) && hi < lo
    ensures ValidateLimits(lo, hi, value) == lo || ValidateLimits(lo, hi, value) == hi
    ensures ValidateLimits(lo, hi, ValidateLimits(lo, hi, value)) != ValidateLimits(lo, hi, value)
  {
  }
}

=== FILE: mask.dfy ===
/**
 Shared vocabulary of the numeric mask: the mask modes, the culture symbols,
 the text box's edit state, what a handler does with an event, the place
 limits, and which typed symbols a mode admits.
 */
module Mask {
  import opened Runtime
  import opened Strings

  /** MaskTypes: free text, a signed integer, or a signed decimal. */
  datatype MaskType = Any | Integer | Decimal

  /** NumberFormatInfo.NumberDecimalSeparator and NegativeSign, one character each. */
  datatype Symbols = Symbols(separator: char, negativeSign: char)

  /**
   The text box as the handlers see it: Text, CaretIndex, SelectionStart and
   SelectionLength. The handlers assign these independently, so a state they
   produce may put the caret past the end of the text.
   */
  datatype EditState = EditState(text: string, caret: int, selStart: int, selLen: int)
  {
    /** What the widget guarantees of the state it hands to a handler. */
    predicate WellFormed() {
      && 0 <= caret <= |text|
      && 0 <= selStart && 0 <= selLen && selStart + selLen <= |text|
    }

    /** The selected characters. */
    function Selected(): string
      requires WellFormed()
    {
      text[selStart..selStart + selLen]
    }
  }

  /** The outcome of an event handler: it marks the event handled with a new state, leaves it alone, or throws. */
  datatype Reaction = Handled(state: EditState) | Unhandled | Thrown(fault: Fault)

  /** MAX_DECIMAL_PLACES and MAX_INTEGER_PLACES: the significant digits of a decimal. */
  const MaxDecimalPlaces: int := 29
  const MaxIntegerPlaces: int := 29

  /** ValidateDecimalPlaces: a DecimalPlaces option above 29 is refused with ArgumentOutOfRangeException. */
  function ValidateDecimalPlaces(value: Byte): (r: Result<Byte>)
    ensures r.Ok? <==> value <= 29
    ensures r.Ok? ==> r.value == value
    ensures r.Fail? ==> r.fault == ArgumentOutOfRange
  {
    if value > MaxDecimalPlaces then Fail(ArgumentOutOfRange) else Ok(value)
  }

  /** ValidateIntegerPlaces: an IntegerPlaces option above 29 is refused with ArgumentOutOfRangeException. */
  function ValidateIntegerPlaces(value: Byte): (r: Result<Byte>)
    ensures r.Ok? <==> value <= 29
    ensures r.Ok? ==> r.value == value
    ensures r.Fail? ==> r.fault == ArgumentOutOfRange
  {
    if value > MaxIntegerPlaces then Fail(ArgumentOutOfRange) else Ok(value)
  }

  /** The place options a text box carries; both are checked before they are stored. */
  datatype Places = Places(decimalPlaces: Byte, integerPlaces: Byte)
  {
    predicate Valid() {
      decimalPlaces <= MaxDecimalPlaces && integerPlaces <= MaxIntegerPlaces
    }
  }

  /** WithDecimalPlacesFor: validate, then store; a refused value changes nothing. */
  function WithDecimalPlaces(p: Places, value: Byte): (r: Result<Places>)
    ensures p.Valid() && r.Ok? ==> r.value.Valid()
    ensures r.Ok? ==> r.value.decimalPlaces == value && r.value.integerPlaces == p.integerPlaces
    ensures r.Fail? <==> value > 29
  {
    match ValidateDecimalPlaces(value)
    case Fail(f) => Fail(f)
    case Ok(v) => Ok(p.(decimalPlaces := v))
  }

  /** WithIntegerPlacesFor: validate, then store; a refused value changes nothing. */
  function WithIntegerPlaces(p: Places, value: Byte): (r: Result<Places>)
    ensures p.Valid() && r.Ok? ==> r.value.Valid()
    ensures r.Ok? ==> r.value.integerPlaces == value && r.value.decimalPlaces == p.decimalPlaces
    ensures r.Fail? <==> value > 29
  {
    match ValidateIntegerPlaces(value)
    case Fail(f) => Fail(f)
    case Ok(v) => Ok(p.(integerPlaces := v))
  }

  /** Every character of `s` is a digit in the library's sense. */
  predicate AllDigits(lib: Library, s: string) {
    forall i | 0 <= i < |s| :: lib.isDigit(s[i])
  }

  /** The symbols a mode admits: anything, the lone sign, the lone separator (decimals only), or digits only. */
  predicate SymbolAccepted(mask: MaskType, s: string, sym: Symbols, lib: Library) {
    match mask
    case Any => true
    case Integer => s == [sym.negativeSign] || AllDigits(lib, s)
    case Decimal => s == [sym.separator] || s == [sym.negativeSign] || AllDigits(lib, s)
  }

  /** IsSymbolValid: the mode's special symbols first, then a scan that fails at the first non-digit. */
  method IsSymbolValid(mask: MaskType, s: string, sym: Symbols, lib: Library) returns (ok: bool)
    ensures ok <==> SymbolAccepted(mask, s, sym, lib)
  {
    match mask {
      case Any => return true;
      case Integer =>
        if s == [sym.negativeSign] {
          return true;
        }
      case Decimal =>
        if s == [sym.separator] || s == [sym.negativeSign] {
          return true;
        }
    }
    var i := 0;
    while i < |s|
      invariant 0 <= i <= |s|
      invariant forall k | 0 <= k < i :: lib.isDigit(s[k])
    {
      if !lib.isDigit(s[i]) {
        return false;
      }
      i := i + 1;
    }
    return true;
  }

  /**
   A string of two or more characters that holds the separator or the sign is
   refused by the numeric modes, provided neither symbol counts as a digit.
   */
  lemma MultiCharacterSymbolRefused(mask: MaskType, s: string, sym: Symbols, lib: Library)
    requires mask != Any && |s| > 1
    requires sym.separator in s || sym.negativeSign in s
    requires !lib.isDigit(sym.separator) && !lib.isDigit(sym.negativeSign)
    ensures !SymbolAccepted(mask, s, sym, lib)
  {
    var k :| 0 <= k < |s| && (s[k] == sym.separator || s[k] == sym.negativeSign);
    assert !lib.isDigit(s[k]);
  }

  /** The empty string passes every mode: the digit scan has nothing to refuse. */
  lemma EmptySymbolAccepted(mask: MaskType, sym: Symbols, lib: Library)
    ensures SymbolAccepted(mask, [], sym, lib)
  {
  }

  /** IsCaretInDecimalPart: a separator was found and the caret lies after it. */
  predicate IsCaretInDecimalPart(separatorIndex: int, caretIndex: int) {
    if separatorIndex == -1 then false else caretIndex > separatorIndex
  }

  /** Applied to the separator's index, the test says exactly: a separator occurs before the caret. */
  lemma CaretInDecimalPartMeaning(text: string, sep: char, caret: int)
    requires 0 <= caret <= |text|
    ensures IsCaretInDecimalPart(IndexOf(text, sep), caret) <==> sep in text[..caret]
  {
    var i := IndexOf(text, sep);
    if sep in text[..caret] {
      var k :| 0 <= k < caret && text[..caret][k] == sep;
      assert text[k] == sep;
    }
    if 0 <= i < caret {
      assert text[..caret][i] == sep;
    }
  }
}

=== FILE: normalize.dfy ===
/**
 Whole-text normalisation: ValidateValue (trim, parse, check the fraction,
 clamp, format), ValidateTextBox (re-validation of the current text) and the
 paste handler built on it.

 The two bound parameters are modelled by position. ValidateValue declares
 them as (maximumValue, minimumValue) but hands its FIRST bound to
 ValidateLimits as the lower limit; ValidateTextBox passes its second bound
 first, so inside ValidateTextBox the names are right again.
 */
module Normalize {
  import opened Runtime
  import opened Strings
  import opened Mask
  import opened Limits

  /** ValidateValue's fraction test: a separator, and length minus its index above decimalPlaces. */
  predicate TooManyDecimals(v: string, sep: char, decimalPlaces: Byte) {
    sep in v && |v| - IndexOf(v, sep) > decimalPlaces
  }

  /** In digits: the test refuses a text once `decimalPlaces` characters follow its separator. */
  lemma TooManyDecimalsMeaning(v: string, sep: char, decimalPlaces: Byte)
    ensures TooManyDecimals(v, sep, decimalPlaces) <==> sep in v && CharsAfterFirst(v, sep) >= decimalPlaces
  {
    if sep in v {
      CharsAfterFirstIndex(v, sep);
    }
  }

  /**
   ValidateValue: a missing or empty text gives ""; otherwise the trimmed text
   is passed through (Any), or parsed, clamped between the first and second
   bound, and formatted, with "" for a text that does not parse or, in Decimal
   mode, has too many characters after its separator.
   */
  function ValidateValue(value: Option<string>, sym: Symbols, lib: Library, mask: MaskType,
                         maximumValue: DecimalValue, minimumValue: DecimalValue,
                         decimalPlaces: Byte): (r: Result<string>)
    ensures value.None? || value == Some([]) ==> r == Ok([])
    ensures r.Fail? ==> mask == Integer && r.fault == Overflow
    ensures mask == Any && value.Some? && value.value != [] ==> r == Ok(lib.trim(value.value))
  {
    if value.None? || value.value == [] then Ok([])
    else
      var v := lib.trim(value.value);
      match mask
      case Integer =>
        (match lib.parseInt(v)
         case None => Ok([])
         case Some(n) =>
           match ToInt32(ValidateLimits(maximumValue, minimumValue, n as real))
           case Fail(f) => Fail(f)
           case Ok(k) => Ok(lib.formatInt(k)))
      case Decimal =>
        (match lib.parseDecimal(v)
         case None => Ok([])
         case Some(x) =>
           if TooManyDecimals(v, sym.separator, decimalPlaces) then Ok([])
           else Ok(lib.formatDecimal(ValidateLimits(maximumValue, minimumValue, x))))
      case Any => Ok(v)
  }

  /**
   Decimal mode refuses (gives "") a trimmed text that does not parse, or that
   has at least `decimalPlaces` characters after its first separator.
   */
  lemma DecimalRefused(s: string, sym: Symbols, lib: Library, first: DecimalValue, second: DecimalValue,
                       decimalPlaces: Byte)
    requires s != []
    requires
      var v := lib.trim(s);
      lib.parseDecimal(v).None? || (sym.separator in v && CharsAfterFirst(v, sym.separator) >= decimalPlaces)
    ensures ValidateValue(Some(s), sym, lib, Decimal, first, second, decimalPlaces) == Ok([])
  {
    TooManyDecimalsMeaning(lib.trim(s), sym.separator, decimalPlaces);
  }

  /**
   Decimal mode accepts a parsed text with fewer than `decimalPlaces` characters
   after its separator, and shows the value clamped with the FIRST bound as the
   lower limit: when those bounds are in order the shown value lies within them,
   and a value already within them is shown unchanged.
   */
  lemma DecimalAccepted(s: string, sym: Symbols, lib: Library, first: DecimalValue, second: DecimalValue,
                        decimalPlaces: Byte, x: DecimalValue)
    requires s != []
    requires lib.parseDecimal(lib.trim(s)) == Some(x)
    requires sym.separator !in lib.trim(s) || CharsAfterFirst(lib.trim(s), sym.separator) < decimalPlaces
    ensures ValidateValue(Some(s), sym, lib, Decimal, first, second, decimalPlaces)
            == Ok(lib.formatDecimal(ValidateLimits(first, second, x)))
    ensures first <= second ==> InRange(first, second, ValidateLimits(first, second, x))
    ensures InRange(first, second, x) ==> ValidateValue(Some(s), sym, lib, Decimal, first, second, decimalPlaces)
                                          == Ok(lib.formatDecimal(x))
  {
    TooManyDecimalsMeaning(lib.trim(s), sym.separator, decimalPlaces);
  }

  /**
   Integer mode: a text int.TryParse refuses gives "", and a parsed integer
   within the bounds is shown as that integer.
   */
  lemma IntegerShownUnchanged(s: string, sym: Symbols, lib: Library, first: DecimalValue, second: DecimalValue,
                              decimalPlaces: Byte)
    requires s != []
    ensures lib.parseInt(lib.trim(s)).None? ==> ValidateValue(Some(s), sym, lib, Integer, first, second, decimalPlaces) == Ok([])
    ensures lib.parseInt(lib.trim(s)).Some? && InRange(first, second, lib.parseInt(lib.trim(s)).value as real) ==>
              ValidateValue(Some(s), sym, lib, Integer, first, second, decimalPlaces)
              == Ok(lib.formatInt(lib.parseInt(lib.trim(s)).value))
  {
    match lib.parseInt(lib.trim(s)) {
      case None =>
      case Some(n) => ToInt32Whole(n);
    }
  }

  /**
   Integer mode with a parsed integer outside the bounds: the bound it crosses
   is cast with `(int)`, truncating toward zero, so a fractional lower bound
   shows a number below that bound, and a bound outside Int32 throws Overflow.
   */
  lemma IntegerClamped(s: string, sym: Symbols, lib: Library, first: DecimalValue, second: DecimalValue,
                       decimalPlaces: Byte, n: Int32)
    requires s != []
    requires lib.parseInt(lib.trim(s)) == Some(n)
    ensures var r := ValidateValue(Some(s), sym, lib, Integer, first, second, decimalPlaces);
            var below := HasLower(first) && (n as real) < first;
            var above := !below && HasUpper(second) && (n as real) > second;
            && (below && ToInt32(first).Ok? ==> r == Ok(lib.formatInt(ToInt32(first).value)))
            && (below && ToInt32(first).Fail? ==> r == Fail(Overflow))
            && (above && ToInt32(second).Ok? ==> r == Ok(lib.formatInt(ToInt32(second).value)))
            && (above && ToInt32(second).Fail? ==> r == Fail(Overflow))
  {
  }

  /**
   Integer mode only throws when clamping substitutes a bound that does not
   fit in an Int32: with every set bound inside Int32 the conversion succeeds.
   */
  lemma IntegerNoOverflow(s: string, sym: Symbols, lib: Library, first: DecimalValue, second: DecimalValue,
                          decimalPlaces: Byte)
    requires !HasLower(first) || -0x8000_0000 as real <= first < 0x8000_0000 as real
    requires !HasUpper(second) || -0x8000_0000 as real <= second < 0x8000_0000 as real
    ensures ValidateValue(Some(s), sym, lib, Integer, first, second, decimalPlaces).Ok?
  {
    if s != [] {
      match lib.parseInt(lib.trim(s)) {
        case None =>
        case Some(n) =>
          var c := ValidateLimits(first, second, n as real);
          if c == n as real {
            ToInt32Whole(n);
          }
      }
    }
  }

  /**
   ValidateTextBox: outside Any mode the current text is replaced by its
   normalised form (possibly ""), clamped with `minimumValue` as the lower
   limit; in Any mode the text is left as it is.
   */
  function ValidateTextBox(text: string, sym: Symbols, lib: Library, mask: MaskType,
                           maximumValue: DecimalValue, minimumValue: DecimalValue,
                           decimalPlaces: Byte): (r: Result<string>)
    ensures mask == Any ==> r == Ok(text)
    ensures r.Fail? ==> mask == Integer
    ensures text == [] ==> r == Ok([])
  {
    if mask != Any then
      ValidateValue(Some(text), sym, lib, mask, minimumValue, maximumValue, decimalPlaces)
    else Ok(text)
  }

  /** In Decimal mode ValidateTextBox clamps with its SECOND bound argument as the lower limit. */
  lemma ValidateTextBoxLowerIsSecond(text: string, sym: Symbols, lib: Library, a: DecimalValue, b: DecimalValue,
                                     decimalPlaces: Byte, x: DecimalValue)
    requires text != []
    requires lib.parseDecimal(lib.trim(text)) == Some(x)
    requires sym.separator !in lib.trim(text) || CharsAfterFirst(lib.trim(text), sym.separator) < decimalPlaces
    ensures ValidateTextBox(text, sym, lib, Decimal, a, b, decimalPlaces) == Ok(lib.formatDecimal(ValidateLimits(b, a, x)))
    ensures b <= a ==> InRange(b, a, ValidateLimits(b, a, x))
  {
    DecimalAccepted(text, sym, lib, b, a, decimalPlaces, x);
  }

  /** What a paste does: the field's new text and the flags set on the event. */
  datatype PasteOutcome = PasteOutcome(text: string, cancelled: bool, handled: bool)

  /**
   TextBoxPastingEventHandler: normalise the clipboard text (null when it holds
   no string), overwrite the field only with a non-empty result, and always
   cancel and handle the paste.
   */
  function Paste(current: string, clipboard: Option<string>, sym: Symbols, lib: Library, mask: MaskType,
                 maximumValue: DecimalValue, minimumValue: DecimalValue, decimalPlaces: Byte): (r: Result<PasteOutcome>)
    ensures r.Ok? ==> r.value.cancelled && r.value.handled
    ensures r.Ok? && current != [] ==> r.value.text != []
    ensures
      var n := ValidateValue(clipboard, sym, lib, mask, minimumValue, maximumValue, decimalPlaces);
      && (r.Fail? <==> n.Fail?)
      && (n == Ok([]) ==> r == Ok(PasteOutcome(current, true, true)))
      && (n.Ok? && n.value != [] ==> r.Ok? && r.value.text == n.value)
  {
    var normalised := ValidateValue(clipboard, sym, lib, mask, minimumValue, maximumValue, decimalPlaces);
    match normalised
    case Fail(f) => Fail(f)
    case Ok(s) => Ok(PasteOutcome(if s != [] then s else current, true, true))
  }

  /** A paste clamps with its `minimumValue` argument as the lower limit: the handler's names are right. */
  lemma PasteLowerIsMinimum(current: string, s: string, sym: Symbols, lib: Library,
                            maximumValue: DecimalValue, minimumValue: DecimalValue, decimalPlaces: Byte, x: DecimalValue)
    requires s != []
    requires lib.parseDecimal(lib.trim(s)) == Some(x)
    requires sym.separator !in lib.trim(s) || CharsAfterFirst(lib.trim(s), sym.separator) < decimalPlaces
    requires lib.formatDecimal(ValidateLimits(minimumValue, maximumValue, x)) != []
    ensures Paste(current, Some(s), sym, lib, Decimal, maximumValue, minimumValue, decimalPlaces)
            == Ok(PasteOutcome(lib.formatDecimal(ValidateLimits(minimumValue, maximumValue, x)), true, true))
  {
    DecimalAccepted(s, sym, lib, minimumValue, maximumValue, decimalPlaces, x);
  }
}

=== FILE: runtime.dfy ===
/**
 The parts of the .NET runtime the mask calls but does not define. Digit
 classification (`char.IsDigit`), `String.Trim`, `decimal.TryParse` and
 `int.TryParse` under the thread culture, and `ToString` under the configured
 culture are fields of `Library`; every core operation takes a `Library`, so
 what is proved about the mask holds whatever those library routines do.
 */
module Runtime {

  datatype Option<+T> = None | Some(value: T)

  /** System.Int32. */
  type Int32 = x: int | -0x8000_0000 <= x < 0x8000_0000

  /** System.Byte, the type of the place counts. */
  type Byte = x: int | 0 <= x < 0x100

  /** decimal.MaxValue and decimal.MinValue, the "no bound" sentinels. */
  const DecimalMaxValue: real := 79228162514264337593543950335.0
  const DecimalMinValue: real := -79228162514264337593543950335.0

  /** A System.Decimal, as the exact base-10 number it denotes (its scale is not kept). */
  type DecimalValue = r: real | -79228162514264337593543950335.0 <= r <= 79228162514264337593543950335.0

  /** The exceptions the core can raise. */
  datatype Fault =
    | ArgumentOutOfRange  // String.Substring / String.Insert given an index past the end
    | Overflow            // (int) applied to a decimal outside Int32

  datatype Result<+T> = Ok(value: T) | Fail(fault: Fault)

  /** The library routines the mask delegates to. */
  datatype Library = Library(
    isDigit: char -> bool,                          // char.IsDigit
    trim: string -> string,                         // String.Trim
    parseDecimal: string -> Option<DecimalValue>,   // decimal.TryParse, thread culture
    parseInt: string -> Option<Int32>,              // int.TryParse, thread culture
    formatDecimal: DecimalValue -> string,          // decimal.ToString(cultureInfo)
    formatInt: Int32 -> string)                     // int.ToString(cultureInfo)

  /** Truncation toward zero. */
  function Truncate(x: real): (r: int)
    ensures 0.0 <= x ==> r as real <= x < r as real + 1.0
    ensures x < 0.0 ==> r as real - 1.0 < x <= r as real
  {
    if 0.0 <= x then x.Floor else -((-x).Floor)
  }

  /** The explicit conversion `(int)d` of a decimal: truncates, and overflows outside Int32. */
  function ToInt32(x: DecimalValue): (r: Result<Int32>)
    ensures r.Ok? && 0.0 <= x ==> r.value as real <= x < r.value as real + 1.0
    ensures r.Ok? && x < 0.0 ==> r.value as real - 1.0 < x <= r.value as real
    ensures r.Fail? <==> x <= -0x8000_0001 as real || 0x8000_0000 as real <= x
    ensures r.Fail? ==> r.fault == Overflow
  {
    var t := Truncate(x);
    if -0x8000_0000 <= t < 0x8000_0000 then Ok(t) else Fail(Overflow)
  }

  /** Converting a whole number that fits gives it back. */
  lemma ToInt32Whole(n: Int32)
    ensures ToInt32(n as real) == Ok(n)
  {
  }
}

=== FILE: scenarios.dfy ===
/**
 Worked examples with '.' as the separator and '-' as the sign, in Decimal
 mode with two decimal places: the usual keystrokes, the paste, and the
 places where the behavior does something unexpected. Each example holds for
 every library that reads the texts involved as the invariant culture does
 (`ExampleCulture`), and `InvariantCultureQualifies` shows the concrete
 invariant-culture library is one.
 */
module Scenarios {
  import opened Runtime
  import opened Strings
  import opened Mask
  import opened Keystroke
  import KeystrokeFacts
  import Deletion
  import Normalize
  import InvariantCulture
  import Corrections

  const Sym := Symbols('.', '-')

  /**
   The library reads texts as the invariant culture does, as far as the
   examples need: ASCII digits, nothing to trim from a text without blanks,
   digits with or without a sign or a point parse, and a text without a digit
   does not.
   */
  ghost predicate ExampleCulture(lib: Library) {
    && (forall c :: lib.isDigit(c) <==> '0' <= c <= '9')
    && TrimsNothing(lib) && ParsesDigits(lib) && ParsesPointed(lib) && RefusesDigitless(lib)
  }

  /** A text without blanks has nothing to trim. */
  ghost predicate TrimsNothing(lib: Library) {
    forall s | ' ' !in s :: lib.trim(s) == s
  }

  /** Up to 28 digits parse, with or without a sign in front. */
  ghost predicate ParsesDigits(lib: Library) {
    && (forall w | InvariantCulture.Digits(w) && 0 < |w| <= 28 :: lib.parseDecimal(w).Some?)
    && (forall w | InvariantCulture.Digits(w) && 0 < |w| <= 28 :: lib.parseDecimal(['-'] + w).Some?)
  }

  /** Up to 28 digits, the point and any digits parse. */
  ghost predicate ParsesPointed(lib: Library) {
    forall w, f | InvariantCulture.Digits(w) && InvariantCulture.Digits(f) && 0 < |w| <= 28
      :: lib.parseDecimal(w + ['.'] + f).Some?
  }

  /** A text without a digit does not parse. */
  ghost predicate RefusesDigitless(lib: Library) {
    forall s | InvariantCulture.NoDigit(s) :: lib.parseDecimal(s).None?
  }

  /** Digits parse. */
  lemma ParsesWhole(lib: Library, w: string)
    requires ParsesDigits(lib)
    requires InvariantCulture.Digits(w) && 0 < |w| <= 28
    ensures lib.parseDecimal(w).Some? && lib.parseDecimal(['-'] + w).Some?
  {
  }

  /** Digits, the point and digits parse. */
  lemma ParsesPoint(lib: Library, w: string, f: string)
    requires ParsesPointed(lib)
    requires InvariantCulture.Digits(w) && InvariantCulture.Digits(f) && 0 < |w| <= 28
    ensures lib.parseDecimal(w + ['.'] + f).Some?
  {
  }

  /** What the examples need the library to say about their texts. */
  predicate ExampleTexts(lib: Library) {
    && (forall c :: lib.isDigit(c) <==> '0' <= c <= '9')
    && lib.trim("12.345") == "12.345" && lib.trim("12.56") == "12.56"
    && ParsesWholes(lib) && ParsesFractions(lib)
    && lib.parseDecimal("-.").None? && lib.parseDecimal("-..").None?
  }

  predicate ParsesWholes(lib: Library) {
    lib.parseDecimal("1").Some? && lib.parseDecimal("12").Some? && lib.parseDecimal("5555").Some?
    && lib.parseDecimal("-123").Some?
  }

  predicate ParsesFractions(lib: Library) {
    && lib.parseDecimal("12.").Some? && lib.parseDecimal("12.5").Some? && lib.parseDecimal("12.56").Some?
    && lib.parseDecimal("12.345").Some? && lib.parseDecimal("312.5").Some?
  }

  /** A library that reads texts as the invariant culture does reads the examples' texts as they need. */
  lemma ReadsExampleTexts(lib: Library)
    requires ExampleCulture(lib)
    ensures ExampleTexts(lib)
  {
    ReadsTrimmed(lib);
    ReadsWholes(lib);
    ReadsFractions(lib);
    ReadsNoNumber(lib);
  }

  lemma ReadsTrimmed(lib: Library)
    requires TrimsNothing(lib)
    ensures lib.trim("12.345") == "12.345" && lib.trim("12.56") == "12.56"
  {
    assert ' ' !in "12.345";
    assert ' ' !in "12.56";
  }

  lemma ReadsNoNumber(lib: Library)
    requires RefusesDigitless(lib)
    ensures lib.parseDecimal("-.").None? && lib.parseDecimal("-..").None?
  {
    assert InvariantCulture.NoDigit("-.");
    assert InvariantCulture.NoDigit("-..");
  }

  lemma ReadsWholes(lib: Library)
    requires ParsesDigits(lib)
    ensures ParsesWholes(lib)
  {
    ReadsShortWholes(lib);
    ParsesWhole(lib, "5555");
    ParsesWhole(lib, "123");
    assert ['-'] + "123" == "-123";
  }

  lemma ReadsShortWholes(lib: Library)
    requires ParsesDigits(lib)
    ensures lib.parseDecimal("1").Some? && lib.parseDecimal("12").Some?
  {
    ParsesWhole(lib, "1");
    ParsesWhole(lib, "12");
  }

  lemma ReadsFractions(lib: Library)
    requires ParsesPointed(lib)
    ensures ParsesFractions(lib)
  {
    ParsesPoint(lib, "12", "");
    assert "12" + ['.'] + "" == "12.";
    ParsesPoint(lib, "12", "5");
    assert "12" + ['.'] + "5" == "12.5";
    ParsesPoint(lib, "12", "56");
    assert "12" + ['.'] + "56" == "12.56";
    ReadsLongFractions(lib);
  }

  lemma ReadsLongFractions(lib: Library)
    requires ParsesPointed(lib)
    ensures lib.parseDecimal("12.345").Some? && lib.parseDecimal("312.5").Some?
  {
    ParsesPoint(lib, "12", "345");
    assert "12" + ['.'] + "345" == "12.345";
    ParsesPoint(lib, "312", "5");
    assert "312" + ['.'] + "5" == "312.5";
  }

  /** A keystroke in Decimal mode with two decimal places. */
  function Type(st: EditState, eventText: string, lib: Library, integerPlaces: Byte): Reaction
    requires st.WellFormed()
  {
    PreviewTextInput(st, eventText, Sym, lib, Decimal, 2, integerPlaces)
  }

  /** A digit passes the gates at the end of a text without a separator. */
  lemma DigitAtEndPasses(text: string, d: char, lib: Library)
    requires ExampleTexts(lib)
    requires '.' !in text && '-' !in text && '0' <= d <= '9'
    ensures !KeystrokeFacts.Refused(EditState(text, |text|, |text|, 0), [d], Sym, lib, Decimal, 2)
  {
    assert lib.isDigit(d);
  }

  /** A digit passes the gates at the end of "12." and "12.5". */
  lemma DecimalAtEndPasses(text: string, d: char, lib: Library)
    requires ExampleTexts(lib)
    requires (text == "12." || text == "12.5") && '0' <= d <= '9'
    ensures !KeystrokeFacts.Refused(EditState(text, |text|, |text|, 0), [d], Sym, lib, Decimal, 2)
  {
    assert lib.isDigit(d);
    assert IndexOf(text, '.') == 2;
    CharsAfterFirstIndex(text, '.');
  }

  /** Typing 1, 2 and the separator into an empty field gives "12." with the caret following. */
  lemma TypingTheWholePart(lib: Library)
    requires ExampleTexts(lib)
    ensures Type(EditState("", 0, 0, 0), "1", lib, 5) == Handled(EditState("1", 1, 1, 0))
    ensures Type(EditState("1", 1, 1, 0), "2", lib, 5) == Handled(EditState("12", 2, 2, 0))
    ensures Type(EditState("12", 2, 2, 0), ".", lib, 5) == Handled(EditState("12.", 3, 3, 0))
  {
    DigitAtEndPasses("", '1', lib);
    assert "" + "1" == "1";
    KeystrokeFacts.AppendAtEnd("", "1", Sym, lib, Decimal, 2, 5);

    DigitAtEndPasses("1", '2', lib);
    assert "1" + "2" == "12";
    KeystrokeFacts.AppendAtEnd("1", "2", Sym, lib, Decimal, 2, 5);

    assert "12" + "." == "12.";
    KeystrokeFacts.AppendAtEnd("12", ".", Sym, lib, Decimal, 2, 5);
  }

  /**
   Then 5 and 6 give "12.56"; with two characters after the separator and the
   caret behind it, a third decimal is refused.
   */
  lemma TypingTheDecimals(lib: Library)
    requires ExampleTexts(lib)
    ensures Type(EditState("12.", 3, 3, 0), "5", lib, 5) == Handled(EditState("12.5", 4, 4, 0))
    ensures Type(EditState("12.5", 4, 4, 0), "6", lib, 5) == Handled(EditState("12.56", 5, 5, 0))
    ensures Type(EditState("12.56", 5, 5, 0), "7", lib, 5) == Handled(EditState("12.56", 5, 5, 0))
  {
    DecimalAtEndPasses("12.", '5', lib);
    assert "12." + "5" == "12.5";
    KeystrokeFacts.AppendAtEnd("12.", "5", Sym, lib, Decimal, 2, 5);

    DecimalAtEndPasses("12.5", '6', lib);
    assert "12.5" + "6" == "12.56";
    KeystrokeFacts.AppendAtEnd("12.5", "6", Sym, lib, Decimal, 2, 5);

    var full := EditState("12.56", 5, 5, 0);
    assert IndexOf(full.text, '.') == 2;
    CharsAfterFirstIndex(full.text, '.');
    assert full.text[..5][2] == '.';
    KeystrokeFacts.RefusedKeepsText(full, "7", Sym, lib, Decimal, 2, 5);
  }

  /** "0" typed into an empty field gives "0" and the separator, the caret after both. */
  lemma TypeZeroIntoEmpty(lib: Library)
    requires ExampleTexts(lib)
    ensures Type(EditState("", 0, 0, 0), "0", lib, 5) == Handled(EditState("0.", 2, 0, 0))
  {
    assert lib.isDigit('0');
    KeystrokeFacts.SeedOnEmptyField(EditState("", 0, 0, 0), "0", Sym, lib, Decimal, 2, 5);
  }

  /** Backspace behind the separator of "0." leaves "0" with the caret after it. */
  lemma BackspaceSeparator()
    ensures Deletion.PreviewKeyDown(EditState("0.", 2, 2, 0), Deletion.Back, Sym, 5)
            == Handled(EditState("0", 1, 2, 0))
  {
    assert IndexOf("0.", '.') == 1;
    assert "0."[..1] == "0";
  }

  /** The sign goes into an empty field; a second sign is refused. */
  lemma TypeSign(lib: Library)
    requires ExampleTexts(lib)
    ensures Type(EditState("", 0, 0, 0), "-", lib, 5) == Handled(EditState("-", 1, 0, 0))
    ensures Type(EditState("-", 1, 1, 0), "-", lib, 5) == Handled(EditState("-", 1, 1, 0))
  {
    KeystrokeFacts.AdmittedWhenNotRefused(EditState("", 0, 0, 0), "-", Sym, lib, Decimal, 2, 5);
    assert KeystrokeFacts.Refused(EditState("-", 1, 1, 0), "-", Sym, lib, Decimal, 2);
    KeystrokeFacts.RefusedKeepsText(EditState("-", 1, 1, 0), "-", Sym, lib, Decimal, 2, 5);
  }

  /** Pasting "12.345" with two decimal places leaves the field as it was, even an empty one. */
  lemma PasteTooManyDecimals(lib: Library, current: string)
    requires ExampleTexts(lib)
    ensures Normalize.Paste(current, Some("12.345"), Sym, lib, Decimal, DecimalMaxValue, DecimalMinValue, 2)
            == Ok(Normalize.PasteOutcome(current, true, true))
  {
    assert IndexOf("12.345", '.') == 2;
    CharsAfterFirstIndex("12.345", '.');
    Normalize.DecimalRefused("12.345", Sym, lib, DecimalMinValue, DecimalMaxValue, 2);
  }

  /**
   Typing "55" over the selected second "12" of "1212" replaces BOTH
   occurrences of "12".
   */
  lemma ReplaceEveryOccurrence(lib: Library)
    requires ExampleTexts(lib)
    ensures Type(EditState("1212", 4, 2, 2), "55", lib, 5) == Handled(EditState("5555", 4, 4, 0))
  {
    var st := EditState("1212", 4, 2, 2);
    assert st.Selected() == "12";
    assert ReplaceAll("1212", "12", "55") == "5555" by {
      assert StartsWith("1212", "12") && "1212"[2..] == "12";
      assert StartsWith("12", "12") && "12"[2..] == [];
      assert ReplaceAll([], "12", "55") == [];
      assert ReplaceAll("12", "12", "55") == "55";
    }
    assert lib.isDigit('5');
    assert Mask.AllDigits(lib, "55");
    KeystrokeFacts.SelectionReplaced(st, "55", Sym, lib, Decimal, 2, 5);
  }

  /**
   Typing the separator over the "1" of "-1" gives "-.", which does not parse,
   and the handler commits it all the same.
   */
  lemma UnparsableCommitted(lib: Library)
    requires ExampleTexts(lib)
    ensures Type(EditState("-1", 2, 1, 1), ".", lib, 5) == Handled(EditState("-.", 2, 2, 0))
  {
    var st := EditState("-1", 2, 1, 1);
    KeystrokeFacts.AdmittedWhenNotRefused(st, ".", Sym, lib, Decimal, 2, 5);
    assert st.Selected() == "1";
    assert ReplaceAll("-1", "1", ".") == "-." by {
      assert !StartsWith("-1", "1") && "-1"[1..] == "1";
      assert StartsWith("1", "1") && "1"[1..] == [];
    }
    assert IndexOf("-1", '.') == -1;
    assert "-." + "." == "-..";
    assert AdmittedInput(st, ".", Sym, lib, 2, 5)
           == SelectionInput(st, ".", Sym, lib, 2, 5, -1, true);
    assert SelectionInput(st, ".", Sym, lib, 2, 5, -1, true)
           == CaretInput(st, "-.", 2, ".", Sym, lib, 2, 5, -1, true);
  }

  /**
   Backspace behind the separator of "1.5" with two integer places keeps the
   separator: the text is cut to two characters, "1.", and the caret goes to
   the old length, past the new end.
   */
  lemma BackspaceKeepsSeparator()
    ensures Deletion.PreviewKeyDown(EditState("1.5", 2, 2, 0), Deletion.Back, Sym, 2)
            == Handled(EditState("1.", 3, 2, 0))
  {
    assert "1.5"[..2] == "1.";
  }

  /**
   With three integer places, a digit typed inside "-12" is refused (the sign
   counts as a place there) while the same digit typed at the end is appended.
   */
  lemma SignCountsOnlyMidText(lib: Library)
    requires ExampleTexts(lib)
    ensures Type(EditState("-12", 1, 1, 0), "3", lib, 3) == Handled(EditState("-12", 1, 1, 0))
    ensures Type(EditState("-12", 3, 3, 0), "3", lib, 3) == Handled(EditState("-123", 4, 4, 0))
  {
    assert lib.isDigit('3');
    var mid := EditState("-12", 1, 1, 0);
    assert !KeystrokeFacts.Refused(mid, "3", Sym, lib, Decimal, 2);
    KeystrokeFacts.AdmittedWhenNotRefused(mid, "3", Sym, lib, Decimal, 2, 3);
    assert AdmittedInput(mid, "3", Sym, lib, 2, 3) == CaretInput(mid, "-12", 1, "3", Sym, lib, 2, 3, -1, true);
    var end := EditState("-12", 3, 3, 0);
    assert !KeystrokeFacts.Refused(end, "3", Sym, lib, Decimal, 2);
    assert "-12" + "3" == "-123";
    KeystrokeFacts.AppendAtEnd("-12", "3", Sym, lib, Decimal, 2, 3);
  }

  /** With five integer places, a sixth digit typed at the end of "12345" is refused. */
  lemma FullIntegerPartRefusesAppend(lib: Library)
    requires ExampleTexts(lib)
    ensures Type(EditState("12345", 5, 5, 0), "6", lib, 5) == Handled(EditState("12345", 5, 5, 0))
  {
    DigitAtEndPasses("12345", '6', lib);
    assert !StartsWith("12345", "-");
    KeystrokeFacts.AppendAtEnd("12345", "6", Sym, lib, Decimal, 2, 5);
  }

  /**
   The sign typed at caret 0 with the "1" of "12" selected: the selection is
   first replaced ("-2"), then that is overwritten by the sign in front of the
   ORIGINAL text, "-12", with the caret one past the replacement's.
   */
  lemma SignDiscardsReplacement(lib: Library)
    requires ExampleTexts(lib)
    ensures Type(EditState("12", 0, 0, 1), "-", lib, 5) == Handled(EditState("-12", 2, 0, 1))
  {
    var st := EditState("12", 0, 0, 1);
    KeystrokeFacts.AdmittedWhenNotRefused(st, "-", Sym, lib, Decimal, 2, 5);
    assert st.Selected() == "1";
    assert "-" + "12" == "-12";
  }

  /**
   The separator typed after "12" in "12345" empties the field: the text
   "12.345" parses, and the kept length rounds down to nothing.
   */
  lemma SeparatorEmptiesField(lib: Library)
    requires ExampleTexts(lib)
    ensures Type(EditState("12345", 2, 2, 0), ".", lib, 5) == Handled(EditState([], 3, 2, 0))
  {
    assert "12345"[..2] + ['.'] + "12345"[2..] == "12.345";
    Corrections.SeparatorMidTextEmpties(EditState("12345", 2, 2, 0), Sym, lib, 2, 5);
  }

  /** With two integer places, "3" typed in front of "12.5" gives "312.5". */
  lemma IntegerPartGrows(lib: Library)
    requires ExampleTexts(lib)
    ensures Type(EditState("12.5", 0, 0, 0), "3", lib, 2) == Handled(EditState("312.5", 1, 1, 0))
  {
    assert IndexOf("12.5", '.') == 2;
    assert lib.isDigit('3');
    assert "12.5"[..0] + ['3'] + "12.5"[0..] == "312.5";
    Corrections.IntegerPartOverflows(EditState("12.5", 0, 0, 0), '3', Sym, lib, 2, 2);
  }

  /**
   "12.56", which the keystroke handler lets one type with two decimal places,
   is erased when the text box is re-validated.
   */
  lemma ExactDecimalsErased(lib: Library)
    requires ExampleTexts(lib)
    ensures Normalize.ValidateTextBox("12.56", Sym, lib, Decimal, DecimalMaxValue, DecimalMinValue, 2) == Ok([])
  {
    assert IndexOf("12.56", '.') == 2;
    CharsAfterFirstIndex("12.56", '.');
    Normalize.DecimalRefused("12.56", Sym, lib, DecimalMinValue, DecimalMaxValue, 2);
  }

  /**
   In Integer mode, pasting "1" with a minimum of 2.5 shows "2", a number below
   the minimum: the bound is truncated toward zero when cast to an int.
   */
  lemma IntegerBelowMinimum()
    ensures Normalize.Paste("", Some("1"), Sym, InvariantCulture.Lib, Integer, DecimalMaxValue, 2.5, 0)
            == Ok(Normalize.PasteOutcome("2", true, true))
  {
    var lib := InvariantCulture.Lib;
    assert lib.trim("1") == "1";
    InvariantCulture.ParseIntUnsigned("1");
    Normalize.IntegerClamped("1", Sym, lib, 2.5, DecimalMaxValue, 0, 1);
    assert ToInt32(2.5) == Ok(2);
    assert lib.formatInt(2) == "2";
  }

  /** The invariant-culture library reads texts as the examples assume. */
  lemma InvariantCultureQualifies()
    ensures ExampleCulture(InvariantCulture.Lib) && ExampleTexts(InvariantCulture.Lib)
  {
    var lib := InvariantCulture.Lib;
    forall s | ' ' !in s
      ensures lib.trim(s) == s
    {
    }
    forall w | InvariantCulture.Digits(w) && 0 < |w| <= 28
      ensures lib.parseDecimal(w).Some? && lib.parseDecimal(['-'] + w).Some?
    {
      InvariantCulture.ParseDecimalAcceptsDigits(w, []);
    }
    forall w, f | InvariantCulture.Digits(w) && InvariantCulture.Digits(f) && 0 < |w| <= 28
      ensures lib.parseDecimal(w + ['.'] + f).Some?
    {
      InvariantCulture.ParseDecimalAcceptsDigits(w, f);
    }
    forall s | InvariantCulture.NoDigit(s)
      ensures lib.parseDecimal(s).None?
    {
      InvariantCulture.ParseDecimalNeedsDigit(s);
    }
    ReadsExampleTexts(lib);
  }
}

=== FILE: strings.dfy ===
/**
 The ordinal System.String operations the mask relies on, over `string`
 (a `seq<char>`). Index results follow .NET: -1 stands for "not found".
 */
module Strings {

  /** `s.StartsWith(prefix)`, compared character by character. */
  predicate StartsWith(s: string, prefix: string) {
    |prefix| <= |s| && s[..|prefix|] == prefix
  }

  /** `s.IndexOf(c, StringComparison.Ordinal)`: the first position holding `c`, or -1. */
  function IndexOf(s: string, c: char): (i: int)
    ensures -1 <= i < |s|
    ensures i == -1 <==> c !in s
    ensures 0 <= i ==> s[i] == c && c !in s[..i]
  {
    if |s| == 0 then -1
    else if s[0] == c then 0
    else
      var j := IndexOf(s[1..], c);
      if j == -1 then -1
      else
        assert s[..j + 1] == [s[0]] + s[1..][..j];
        j + 1
  }

  /** A position holding `c` with no `c` before it is the first one. */
  lemma IndexOfIs(s: string, c: char, i: int)
    requires 0 <= i < |s| && s[i] == c && c !in s[..i]
    ensures IndexOf(s, c) == i
  {
    assert forall m | 0 <= m < i :: s[..i][m] == s[m];
    assert c in s;
  }

  /**
   One character other than `c` inserted at or before the first `c` moves it
   one position on.
   */
  lemma IndexOfAfterInsert(s: string, k: int, x: char, c: char)
    requires c in s && 0 <= k <= IndexOf(s, c) && x != c
    ensures IndexOf(s[..k] + [x] + s[k..], c) == IndexOf(s, c) + 1
  {
    var i := IndexOf(s, c);
    var t := s[..k] + [x] + s[k..];
    assert t[i + 1] == c;
    forall m | 0 <= m < i + 1
      ensures t[m] != c
    {
      if m < k {
        assert t[m] == s[..i][m];
      } else if m > k {
        assert t[m] == s[..i][m - 1];
      }
    }
    IndexOfIs(t, c, i + 1);
  }

  /** The number of characters that follow the first occurrence of `c` (0 when `c` is absent). */
  function CharsAfterFirst(s: string, c: char): nat
  {
    if |s| == 0 then 0
    else if s[0] == c then |s| - 1
    else CharsAfterFirst(s[1..], c)
  }

  /** The characters after the first `c` are exactly those past its index. */
  lemma {:induction false} CharsAfterFirstIndex(s: string, c: char)
    requires c in s
    ensures CharsAfterFirst(s, c) == |s| - IndexOf(s, c) - 1
  {
    if s[0] != c {
      assert c in s[1..] by {
        var k :| 0 <= k < |s| && s[k] == c;
        assert s[1..][k - 1] == c;
      }
      CharsAfterFirstIndex(s[1..], c);
    }
  }

  /** `pat` occurs in `s` at position `j`. */
  ghost predicate OccursAt(s: string, pat: string, j: int) {
    0 <= j && j + |pat| <= |s| && s[j..j + |pat|] == pat
  }

  /**
   `s.Replace(pat, rep)`: scanning left to right, every non-overlapping
   occurrence of `pat` is replaced by `rep` (an empty `pat` throws in .NET).
   */
  function ReplaceAll(s: string, pat: string, rep: string): (r: string)
    requires |pat| > 0
    ensures |pat| == |rep| ==> |r| == |s|
    ensures StartsWith(s, pat) ==> StartsWith(r, rep)
    decreases |s|
  {
    if |s| < |pat| then s
    else if s[..|pat|] == pat then rep + ReplaceAll(s[|pat|..], pat, rep)
    else [s[0]] + ReplaceAll(s[1..], pat, rep)
  }

  /** Replacing the whole string gives the replacement. */
  lemma ReplaceAllWhole(s: string, rep: string)
    requires |s| > 0
    ensures ReplaceAll(s, s, rep) == rep
  {
    assert s[..|s|] == s;
    assert s[|s|..] == [];
    assert rep + [] == rep;
  }

  /** Without any occurrence of the pattern, replacing leaves the string as it is. */
  lemma {:induction false} ReplaceAllAbsent(s: string, pat: string, rep: string)
    requires |pat| > 0
    requires forall j :: !OccursAt(s, pat, j)
    ensures ReplaceAll(s, pat, rep) == s
    decreases |s|
  {
    if |pat| <= |s| {
      assert !OccursAt(s, pat, 0);
      forall j ensures !OccursAt(s[1..], pat, j) {
        if OccursAt(s[1..], pat, j) {
          assert s[1..][j..j + |pat|] == s[j + 1..j + 1 + |pat|];
          assert OccursAt(s, pat, j + 1);
        }
      }
      ReplaceAllAbsent(s[1..], pat, rep);
    }
  }

  /** An occurrence in a suffix is an occurrence in the whole string, shifted. */
  lemma OccursInSuffix(s: string, pat: string, k: nat, j: int)
    requires k <= |s|
    requires OccursAt(s[k..], pat, j)
    ensures OccursAt(s, pat, j + k)
  {
    assert s[k..][j..j + |pat|] == s[j + k..j + k + |pat|];
  }

  /** A unique leading occurrence: the rest of the string has none left to replace. */
  lemma UniqueAtStart(s: string, pat: string, rep: string)
    requires |pat| > 0
    requires OccursAt(s, pat, 0)
    requires forall j :: OccursAt(s, pat, j) ==> j == 0
    ensures ReplaceAll(s, pat, rep) == rep + s[|pat|..]
  {
    forall j ensures !OccursAt(s[|pat|..], pat, j) {
      if OccursAt(s[|pat|..], pat, j) {
        OccursInSuffix(s, pat, |pat|, j);
      }
    }
    ReplaceAllAbsent(s[|pat|..], pat, rep);
  }

  /**
   When the pattern occurs exactly once, at `i`, replacing all occurrences is
   the same as splicing `rep` over that one span.
   */
  lemma {:induction false} ReplaceAllUnique(s: string, pat: string, rep: string, i: int)
    requires |pat| > 0
    requires OccursAt(s, pat, i)
    requires forall j :: OccursAt(s, pat, j) ==> j == i
    ensures ReplaceAll(s, pat, rep) == s[..i] + rep + s[i + |pat|..]
    decreases |s|
  {
    if i == 0 {
      UniqueAtStart(s, pat, rep);
    } else {
      UniqueInTail(s, pat, i);
      ReplaceAllUnique(s[1..], pat, rep, i - 1);
      UniqueStep(s, pat, rep, i);
    }
  }

  /** The splice at `i` follows from the splice at `i - 1` in the tail. */
  lemma UniqueStep(s: string, pat: string, rep: string, i: int)
    requires |pat| > 0 && 0 < i && i + |pat| <= |s| && s[..|pat|] != pat
    requires ReplaceAll(s[1..], pat, rep) == s[1..][..i - 1] + rep + s[1..][i - 1 + |pat|..]
    ensures ReplaceAll(s, pat, rep) == s[..i] + rep + s[i + |pat|..]
  {
    SpliceInTail(s, i, i + |pat|, rep);
  }

  /** A splice into the tail, with the first character put back, is the splice into the whole. */
  lemma SpliceInTail(s: string, i: int, k: int, rep: string)
    requires 0 < i <= k <= |s|
    ensures [s[0]] + (s[1..][..i - 1] + rep + s[1..][k - 1..]) == s[..i] + rep + s[k..]
  {
    assert s[..i] == [s[0]] + s[1..][..i - 1];
    assert s[1..][k - 1..] == s[k..];
  }

  /** A unique occurrence past the start: the string does not start with it, and its tail holds it once, one earlier. */
  lemma UniqueInTail(s: string, pat: string, i: int)
    requires |pat| > 0 && 0 < i
    requires OccursAt(s, pat, i)
    requires forall j :: OccursAt(s, pat, j) ==> j == i
    ensures |pat| < |s| && s[..|pat|] != pat
    ensures OccursAt(s[1..], pat, i - 1)
    ensures forall j :: OccursAt(s[1..], pat, j) ==> j == i - 1
  {
    assert !OccursAt(s, pat, 0);
    forall j | OccursAt(s[1..], pat, j) ensures j == i - 1 {
      OccursInSuffix(s, pat, 1, j);
    }
    assert s[1..][i - 1..i - 1 + |pat|] == s[i..i + |pat|];
  }
}
